=== FILE: README.md ===
# NETRA console and task registry — a Dafny model

NETRA is an underwater-surveillance assistant. A React front end streams webcam frames over a
WebSocket to a FastAPI back end, which enhances them, attaches (simulated) detections, and returns
them. This project models the deterministic core of that system and proves properties about it.

- **Live mission console** (`LiveStream.js`). This covers:
  - the threat classifier and the edge-triggered threat notifier;
  - latency and FPS telemetry;
  - the letterboxed overlay renderer;
  - sending frames only while the socket is OPEN;
  - stream start and stop;
  - the sighting logger.

  The console is a `Session` class. Its fields are the component's state and refs. Its methods are the socket, timer and button callbacks. The current time is a parameter. Frames sent, toasts, canvas draws and sighting posts are recorded in fields.
- **Back-end registries** (`main.py`). This covers:
  - the sightings, missions and task tables;
  - seed-once demo data;
  - append-only logging;
  - mission creation;
  - the per-label detection frequency (a `collections.Counter` model);
  - the 404 guards;
  - the PROCESSING → COMPLETED/FAILED lifecycle of a background video task.
- **Padding geometry** (`processing.py`). This covers:
  - the centred paste offsets and crop box of `resize_with_padding`;
  - a pixel-level proof that cropping the padded picture with that box gives the thumbnail back, which is the use `enhance_image_with_model` makes of it.
- **Video enhancement page** (`VideoEnhancer.js`). This covers:
  - the `isProcessing` flag and the button label;
  - the upload sequence;
  - the polling loop and the conditions that stop it;
  - the reset when a new file is chosen.

Files:
- `wrappers.dfy`: Option and Result.
- `threat.dfy`: the classifier and notifier.
- `telemetry.dfy`: the FPS window.
- `overlay.dfy`: the letterbox and draw commands.
- `js_text.dfy`: JavaScript `trim`.
- `live_session.dfy`: the `Session` class.
- `label_frequency.dfy`: the Counter.
- `registry.dfy`: the back-end registries.
- `padding.dfy`: the padding geometry.
- `video_enhancer.dfy`: the video enhancement page.

Behaviour worth knowing, all stated in the contracts:
- **The classifier and the notifier disagree.** The classifier matches the labels "Submarine" and "Mine" exactly. The critical toast picks the first label that merely *contains* one of them, so "Minesweeper" counts for the toast but not for the level.
- **FPS at the window boundary.** The FPS window uses a strict comparison, so a message exactly 1000 ms after the anchor does not emit.
- **Two failures leave the Enhance button disabled until another file is chosen:**
  - a failed status request does not reset the in-flight status;
  - an enhance reply without `task_id` leaves the status at UPLOADING.
- **Each axis is scaled by its own image dimension.** Box [0,0,128,128] on a 320×240 image becomes (0,0,320,240) (`Overlay.ReferenceFrame`).
- **A level change stops the frames.** The socket effect depends on the current threat level (`LiveStream.js:77-81`). On the first level change its cleanup clears the capture interval, and only Start streaming installs it again. So after that change no frame is sent until the user stops and starts the stream (`LiveStream.MessageThenTicks`). A streaming session therefore raises at most one level-change toast before its frames stop, and a run of levels such as `Threat.ExampleLevelRun` spans several sessions.
- **Server boxes can leave the drawn image.** The server's simulated detector draws boxes in the pixels of the 320×240 frame it received (`backend/app/main.py:111-114`), so x2 can reach 288. The overlay treats boxes as 0–256 coordinates (`LiveStream.js:99-100`). A box's right edge stays inside the drawn image exactly when x2 ≤ 256 (`Overlay.RightEdgeInsideIff`), and the box (188,116,288,216) runs past it (`Overlay.PixelBoxLeavesImage`).

## Model

| member | source | states |
|---|---|---|
| Threat.DisplayLabelInjective | frontend/src/components/LiveStream.js:5-9 | the three level labels are pairwise distinct, so comparing labels is comparing levels |
| Threat.GetThreatLevel | frontend/src/components/LiveStream.js:12-20 | the early-return scan yields exactly the classification of the list |
| Threat.NoneIffAbsentOrEmpty | frontend/src/components/LiveStream.js:13 | the level is NONE exactly when the list is absent or empty |
| Threat.CriticalAnywhere | frontend/src/components/LiveStream.js:14-17 | a "Submarine" or "Mine" label at any position makes the level CRITICAL, whatever surrounds it |
| Threat.LowIffBenignNonEmpty | frontend/src/components/LiveStream.js:12-20 | LOW exactly when the list is non-empty and no label is exactly a critical one |
| Threat.ClassifyMonotone | frontend/src/components/LiveStream.js:12-20 | appending detections never lowers the level |
| Threat.CriticalLabelMentioned | frontend/src/components/LiveStream.js:61 | an exactly critical label also matches the toast's substring pattern |
| Threat.MentionIsNotCritical | frontend/src/components/LiveStream.js:61 | "Minesweeper" matches the toast pattern but is not a critical label |
| Threat.FirstCriticalMention | frontend/src/components/LiveStream.js:61 | returns the first index whose label contains "Submarine" or "Mine" |
| Threat.CriticalHasMention | frontend/src/components/LiveStream.js:57-62 | on a CRITICAL list the toast's search always finds a detection |
| Threat.UpdateThreat | frontend/src/components/LiveStream.js:57-66 | the level becomes the message's classification; a toast is raised iff the level changes to LOW or CRITICAL; a critical toast names the first detection whose label matches the pattern, an anomaly toast names the first detection |
| Threat.ExampleToastNamesFirstMatch | frontend/src/components/LiveStream.js:57-62 | from NONE, the list [Minesweeper, Mine] is CRITICAL and its toast names "Minesweeper", the first match, not the critical label |
| Threat.OneToastPerEdge | frontend/src/components/LiveStream.js:57-66 | over any message run, the toasts raised equal the number of changes into a non-NONE level |
| Threat.SteadyLevelRaisesOnce | frontend/src/components/LiveStream.js:58-66 | a repeated level raises at most one toast, and none when it is NONE or unchanged |
| Threat.ExampleLevelRun | frontend/src/components/LiveStream.js:57-66 | from NONE, the levels NONE, LOW, LOW, CRITICAL, NONE, LOW raise exactly three toasts |
| Threat.ExampleMessageSteps | frontend/src/components/LiveStream.js:57-66 | the level and toast of each step of the example run: a whale from NONE warns, a mine beside it alerts, a return to NONE is silent |
| Threat.ExampleMessageRun | frontend/src/components/LiveStream.js:57-66 | a concrete message run yields an anomaly, a critical and an anomaly toast naming the expected labels |
| Telemetry.FpsTick | frontend/src/components/LiveStream.js:47-55 | one message either emits the count (this message included) and resets it, or only increments it |
| Telemetry.QuietWindow | frontend/src/components/LiveStream.js:49-55 | messages within 1000 ms of the anchor only add to the count and keep fps |
| Telemetry.FpsCountsWindow | frontend/src/components/LiveStream.js:47-52 | the message closing a window emits the number of messages in it and re-anchors at its time |
| Telemetry.FeedSplit | frontend/src/components/LiveStream.js:43-55 | processing a run in two parts is processing it in one |
| Telemetry.BoundaryDoesNotEmit | frontend/src/components/LiveStream.js:49 | a message exactly 1000 ms after the anchor keeps fps; one at 1001 ms emits |
| Telemetry.FirstMessageEmitsOne | frontend/src/components/LiveStream.js:33-52 | from the initial refs, a first message after 1000 ms emits fps 1 |
| Overlay.Letterbox | frontend/src/components/LiveStream.js:87-91 | the ratio is the smaller axis ratio; the scaled image fits, fills one axis, and is centred with non-negative offsets |
| Overlay.MapBox | frontend/src/components/LiveStream.js:98-103 | the outline of a box: each coordinate scaled by the drawn image's size over 256 and shifted by the margins; its properties are stated by the lemmas below |
| Overlay.BoxInsideImage | frontend/src/components/LiveStream.js:97-103 | a box in the 0–256 space maps inside the drawn image, with size proportional to the box |
| Overlay.ReferenceFrame | frontend/src/components/LiveStream.js:87-103 | a 320×240 image in the 640×480 canvas has ratio 2 and offsets 0; box [0,0,128,128] becomes (0,0,320,240) |
| Overlay.RightEdgeInsideIff | frontend/src/components/LiveStream.js:98-103 | a mapped box's right edge stays within the drawn image exactly when its x2 is at most 256 |
| Overlay.PixelBoxLeavesImage | backend/app/main.py:111-114 | a box at the far end of the server's pixel range on a 320×240 frame is drawn past the image's right edge |
| Overlay.DetectionCommands | frontend/src/components/LiveStream.js:97-107 | one detection draws two commands: its mapped outline, then its label and confidence 5 px above the outline's top-left corner |
| Overlay.BoxCommands | frontend/src/components/LiveStream.js:97-107 | two commands per detection; their content and order are stated by `Overlay.BoxCommandsAt` |
| Overlay.OverlayCommands | frontend/src/components/LiveStream.js:93-107 | the letterboxed image followed by each detection's outline and caption; `Session.Render` is proved to produce it |
| Overlay.BoxCommandsAt | frontend/src/components/LiveStream.js:97-107 | detection k is drawn as an outline then a caption 5 px above the outline's top |
| JsText.TrimEmptyIffBlank | frontend/src/components/LiveStream.js:141 | `trim()` yields "" exactly when every character is ECMAScript white space or a line terminator |
| LiveStream.Session.constructor | frontend/src/components/LiveStream.js:23-36 | initial state: not streaming, not connected, zero stats and refs, NONE, no image |
| LiveStream.Session.OnOpen | frontend/src/components/LiveStream.js:41 | the socket is open and the console connected |
| LiveStream.Session.OnClose | frontend/src/components/LiveStream.js:74 | the socket is closed and the console disconnected |
| LiveStream.Session.OnMessage | frontend/src/components/LiveStream.js:43-68 | latency is now − send time; server time is copied; the FPS window advances; level and toasts follow UpdateThreat; detections are replaced |
| LiveStream.Session.OnImageDecoded | frontend/src/components/LiveStream.js:69-71 | the decoded image becomes the one rendered |
| LiveStream.Session.Render | frontend/src/components/LiveStream.js:83-109 | without a decoded image the canvas is untouched; otherwise it is cleared and holds the letterboxed image then each detection's outline and caption, in order |
| LiveStream.Session.SendFrame | frontend/src/components/LiveStream.js:111-119 | a frame is sent, stamped with the current time, exactly when the socket is OPEN |
| LiveStream.Session.CaptureTick | frontend/src/components/LiveStream.js:126 | a timer firing sends only while the interval is installed and the socket open |
| LiveStream.Session.StartStreaming | frontend/src/components/LiveStream.js:121-128 | with camera access the tracks run, streaming is on and the interval installed; without it nothing changes |
| LiveStream.Session.StopStreaming | frontend/src/components/LiveStream.js:130-137 | the interval is cleared, the tracks stopped, streaming off and the level back to NONE |
| LiveStream.Session.HandleLogSighting | frontend/src/components/LiveStream.js:139-150 | a post with the notes, the canvas and the current detections is made, and awaits its outcome, exactly when the notes are present and not blank |
| LiveStream.Session.OnSightingPostSettled | frontend/src/components/LiveStream.js:151-152 | the outcome of a post still pending: one success or failure toast, and one fewer pending post |
| LiveStream.Session.OnThreatEffectRerun | frontend/src/components/LiveStream.js:77-81 | the effect's cleanup clears the capture interval and a new socket starts connecting |
| LiveStream.MessageThenTicks | frontend/src/components/LiveStream.js:57-81 | after a message that changes the level, later timer firings send nothing, even once the new socket is open; without a change, an active capture sends one frame per firing |
| LiveStream.TicksWhileNotOpen | frontend/src/components/LiveStream.js:111-126 | any run of timer firings while the socket is not OPEN sends nothing |
| LabelFrequency.Tally | backend/app/main.py:286 | `Counter(all_labels).items()` built label by label; the lemmas below prove it is the per-label count in first-occurrence order |
| LabelFrequency.DistinctMembers | backend/app/main.py:286 | the reference list of distinct labels holds every label once and nothing else |
| LabelFrequency.CountAbsent | backend/app/main.py:286 | an absent label counts zero |
| LabelFrequency.TallyIsCounter | backend/app/main.py:286 | the incremental tally has one entry per distinct label holding its occurrence count |
| LabelFrequency.EntriesAreDistinctLabels | backend/app/main.py:282-286 | a label has an entry iff it occurs; entries are distinct; each count is the label's occurrences |
| LabelFrequency.FirstOccurrenceOrder | backend/app/main.py:286 | the entries are the distinct labels in first-occurrence order |
| LabelFrequency.DistinctByFirstOccurrence | backend/app/main.py:286 | along that order, first occurrences are strictly increasing |
| LabelFrequency.CountsSumToTotal | backend/app/main.py:282-286 | the counts add up to the number of labels |
| Registry.AsciiLower | backend/app/main.py:68 | upper-case ASCII letters are lowered, everything else kept, length kept |
| Registry.SeedSighting | backend/app/main.py:64-76 | one demo sighting from its draws: notes from the lowered anomaly name, the placeholder snapshot, one detection of that anomaly |
| Registry.SeededSightingShape | backend/app/main.py:63-77 | each seeded sighting has exactly one detection, of a known anomaly type, with an ordered 4-value box |
| Registry.AllLabels | backend/app/main.py:282-285 | every detection label of the log in log order, skipping null or empty detection lists |
| Registry.AllLabelsLength | backend/app/main.py:282-285 | the collected labels are as many as the detections in the log |
| Registry.FrequencySumsToDetections | backend/app/main.py:282-286 | the detection frequencies add up to the total number of detections |
| Registry.EmptySightingAddsNothing | backend/app/main.py:284 | a sighting with null or empty detections changes no frequency |
| Registry.GetTaskStatus | backend/app/main.py:219-223 | the entry for a known id; 404 "Task not found" exactly for an unknown one |
| Registry.GetResult | backend/app/main.py:225-231 | the path is served exactly when the task exists, is COMPLETED, and has a non-empty path present on disk; otherwise 404 "Result not available yet." for a missing or unfinished task and 404 "Result file not found." for a missing path |
| Registry.ResultOnlyWhenCompleted | backend/app/main.py:227-230 | a served result implies a status lookup that succeeds with COMPLETED |
| Registry.ExportReport | backend/app/main.py:166-181 | 404 "No sightings logged." exactly on an empty log; otherwise every sighting is reported when the document survives its Latin-1 encode, and the request ends in a server error when it does not |
| Registry.RoundHalfEven | backend/app/main.py:141 | Python's `round()`: the nearest integer, and the even one on a tie |
| Registry.Progress | backend/app/main.py:141 | the rounded percentage of frames done: within 1/2 of the exact ratio, between 0 and 100 while frames done do not exceed the total, and 100 when they are equal |
| Registry.ProgressMonotone | backend/app/main.py:141 | the progress written never decreases as frames are done |
| Registry.RunError | backend/app/main.py:124-149 | the error a background run ends with: the capture, writer, per-frame and empty-output failures in the order the code meets them, or none |
| Registry.FramesDone | backend/app/main.py:133-141 | the frames enhanced and written before the run stopped |
| Registry.Registry.constructor | backend/app/main.py:44-46 | all three tables start empty |
| Registry.Registry.SeedInitialData | backend/app/main.py:49-77 | a non-empty log is untouched; an empty one receives exactly the twelve seeded sightings in draw order |
| Registry.Registry.LogSighting | backend/app/main.py:157-161 | exactly one record (the posted fields plus id and GPS) is appended; earlier entries are unchanged |
| Registry.Registry.CreateMission | backend/app/main.py:249-253 | with name and objectives present, one mission with status "Active" is appended and returned; otherwise nothing is appended |
| Registry.Registry.GetDashboardStats | backend/app/main.py:280-292 | frequency is the Counter of all labels in log order; totals are the two log lengths |
| Registry.Registry.WriteFrames | backend/app/main.py:133-141 | the frame loop: it stops at the first failing frame with that frame's message, or after every frame read; each write keeps the entry PROCESSING and sets the rounded progress of the frames done; nothing is written when the frame count is not positive |
| Registry.Registry.ProcessVideoInBackground | backend/app/main.py:123-149 | the entry starts PROCESSING at 0, stays PROCESSING while progress is written (only when the frame count is positive), and ends COMPLETED with the output path exactly when no step fails, else FAILED with that step's message; other tasks are untouched |
| Processing.ResizeWithPadding | backend/app/processing.py:14-22 | the canvas is the target; offsets are non-negative; the crop box starts at the offsets, has the thumbnail's size, lies inside the target, and the margins differ by at most one |
| Processing.FullSizeNeedsNoPadding | backend/app/processing.py:18-21 | a thumbnail of the target size is pasted at the origin and cropped whole |
| Processing.WideThumbnailExample | backend/app/processing.py:18-21 | 200×100 in 256×256 is placed at (28,78) |
| Processing.Fill | backend/app/processing.py:17 | a canvas of the given size in one colour |
| Processing.Paste | backend/app/processing.py:20 | the pasted image overwrites its rectangle; every other pixel is kept |
| Processing.Crop | backend/app/processing.py:49 | the box's pixels, shifted to the origin |
| Processing.CropUndoesPadding | backend/app/processing.py:14-22 | cropping the padded picture with the returned box yields the thumbnail |
| Processing.PaddingIsBlack | backend/app/processing.py:17-20 | every pixel outside the box is the padding colour |
| Processing.EnhanceImageWithModel | backend/app/processing.py:40-57 | the network sees 256×256; the cropped output has the thumbnail's size and is the output inside the box; the final size is the original's |
| Processing.IdentityNetworkRecoversThumbnail | backend/app/processing.py:41-49 | with a network that changes nothing, the cropped region is the thumbnail itself |
| VideoEnhancer.IsProcessing | frontend/src/components/VideoEnhancer.js:100 | the status is one of ANALYZING, UPLOADING, QUEUED, PROCESSING |
| VideoEnhancer.ButtonEnabled | frontend/src/components/VideoEnhancer.js:120 | a file is chosen and no work is in flight |
| VideoEnhancer.FailureText | frontend/src/components/VideoEnhancer.js:52 | "Processing failed: " followed by the task's error, or "Unknown error" when it is missing or empty |
| VideoEnhancer.Digits | frontend/src/components/VideoEnhancer.js:103 | non-empty decimal digits |
| VideoEnhancer.DigitsRoundTrip | frontend/src/components/VideoEnhancer.js:103 | the printed digits read back as the number |
| VideoEnhancer.StatusMessage | frontend/src/components/VideoEnhancer.js:100-109 | "Processing... N%", "STATUS...", "Completed!"/"Loading Result...", "Failed", or "Enhance Video", by status |
| VideoEnhancer.LabelShowsProcessing | frontend/src/components/VideoEnhancer.js:100-109 | work is in flight exactly when the label is not one of the four idle labels |
| VideoEnhancer.ErrorText | frontend/src/components/VideoEnhancer.js:88 | the server's detail when truthy, else the default message |
| VideoEnhancer.Enhancer.constructor | frontend/src/components/VideoEnhancer.js:5-13 | no file, no videos, no error, empty status, progress 0, no polling |
| VideoEnhancer.Enhancer.HandleFileChange | frontend/src/components/VideoEnhancer.js:25-37 | a chosen file resets results, error, status and progress and cancels polling, enabling the button; no file changes nothing |
| VideoEnhancer.Enhancer.HandleEnhance | frontend/src/components/VideoEnhancer.js:62-91 | no file: an error and no request; else statuses "", ANALYZING, UPLOADING, then QUEUED with polling, or FAILED with the error text, or an error when no task id comes back |
| VideoEnhancer.Enhancer.PollTick | frontend/src/components/VideoEnhancer.js:39-58 | one status request; progress is taken only when non-zero; COMPLETED sets the result URL, FAILED the failure text, a request error the poll error; polling stops exactly on those three |
| VideoEnhancer.Enhancer.Poll | frontend/src/components/VideoEnhancer.js:39-58 | polling makes one request per firing and stops right after the first terminal reply, never earlier; status and progress are those of the successful replies, folded in order; while polling goes on, neither the result nor the error is touched; when it stops, a COMPLETED reply leaves the result URL and "Completed!", a FAILED reply the failure text and "Failed", and a failed request the poll error |
| VideoEnhancer.ZeroProgressKeepsValue | frontend/src/components/VideoEnhancer.js:46 | replies that report progress 0 never erase the progress shown |

## Left out

- Image decoding is a separate event (`OnImageDecoded`). The race between `img.onload` and rendering is not modelled beyond that ordering.
- The WebSocket, axios, `getUserMedia`, JPEG encoding and toast rendering are left out. Each is a recorded event or a parameter.
- The effect re-run on a level change is modelled by its effect on the capture interval and the socket state. The old socket's close arriving later, and the new socket's handlers capturing the new level, are not modelled.
- Canvas styling (colours, fonts, line width) is left out. So is the `toFixed` percentage in captions: `Caption` keeps the confidence as an exact real.
- Live-console coordinates are exact reals, not IEEE doubles.
- Telemetry.FpsTick: its own contract states only the two possible shapes of the result; the exact behaviour is stated by the lemmas beside it.
- Python `str.lower()` is modelled on ASCII only. The anomaly names are ASCII.
- Random draws, uuids, clock readings and simulated GPS fixes are parameters. They are constrained only by the ranges the random calls can return.
- `Registry.Registry.CreateMission` models the body as a map from field name to string. Non-string values and pydantic's coercions are not modelled, and a null value counts as missing.
- `Registry.Registry.GetDashboardStats` leaves out the random performance series.
- `Registry.Registry.ProcessVideoInBackground` has these limits:
  - progress is rounded from the exact ratio, not from a double;
  - OpenCV, the network and the file system are summarised by a `VideoRun` record;
  - deleting the input file is not modelled;
  - status and result path (or status and error) are written as one step, so a reader seeing the half-written entry between them is not modelled.
- `Registry.ExportReport` takes whether the Latin-1 encode succeeds as a parameter; which characters make it fail depends on the PDF library, which is not part of this model. The PDF layout is left out, and so is the per-sighting snapshot failure, which the handler catches.
- PIL's `thumbnail`, the FUnIE-GAN network, super-resolution and resampling are library calls. The thumbnail is a parameter that fits the target, and the network output is a 256×256 parameter. Only the final image's size is modelled.
- Concurrency between the background task and request handlers is not modelled.
- LiveStream.Session.StartStreaming treats the `getUserMedia` request and its answer as one step, and the capture interval and camera stream as one flag each. In the page the Start button stays enabled while the request is awaited, so a second click starts a second stream and a second interval and overwrites the refs to the first. Stop and the effect cleanup then clear only the last interval and stop only the last stream, so frames keep being sent and the first camera stays on. The model does not capture that.
- VideoEnhancer.Enhancer.HandleEnhance treats each request and its reply as one step. In the page the two posts are awaited, and the file input stays enabled, so a file change can land between them. The model does not capture the page then going on to poll a task started for the previous file.
- VideoEnhancer.Enhancer.PollTick treats each status request and its reply as one step. The model does not capture a reply arriving after polling was cleared: the interval fires every 3000 ms whether or not the previous request has returned, so a late PROCESSING reply can put the status back in flight after COMPLETED.
- VideoEnhancer.Enhancer.Poll inherits that limit: it fires the interval only once the previous reply has been handled.
- LiveStream.Session.OnMessage takes only the normal message with image, detections and server time. The `{"error": …}` message the server sends when the enhancement model is not loaded (`backend/app/main.py:236`) is not modelled. The console would handle it with no detections and no server time.
- The timeline bars and analysis display of `VideoEnhancer.js` are left out.
- The other pages of the front end and the other back-end endpoints are not part of this model.

=== FILE: js_text.dfy ===
/** String.prototype.trim, as the sighting logger uses it to refuse blank notes. */
module JsText {

  /** ECMAScript WhiteSpace and LineTerminator code points. */
  predicate IsJsWhitespace(c: char)
  {
    || c == '\t' || c == '\n' || c == '\U{000B}' || c == '\U{000C}' || c == '\r' || c == ' '
    || c == '\U{00A0}' || c == '\U{1680}' || ('\U{2000}' <= c <= '\U{200A}')
    || c == '\U{2028}' || c == '\U{2029}' || c == '\U{202F}' || c == '\U{205F}'
    || c == '\U{3000}' || c == '\U{FEFF}'
  }

  function TrimStart(s: string): string
    decreases |s|
  {
    if s != [] && IsJsWhitespace(s[0]) then TrimStart(s[1..]) else s
  }

  function TrimEnd(s: string): string
    decreases |s|
  {
    if s != [] && IsJsWhitespace(s[|s| - 1]) then TrimEnd(s[..|s| - 1]) else s
  }

  function Trim(s: string): string
  {
    TrimEnd(TrimStart(s))
  }

  /** Every character is whitespace. */
  predicate IsBlank(s: string)
  {
    forall i :: 0 <= i < |s| ==> IsJsWhitespace(s[i])
  }

  lemma {:induction false} TrimStartBlank(s: string)
    ensures TrimStart(s) == [] <==> IsBlank(s)
    ensures TrimStart(s) != [] ==> !IsJsWhitespace(TrimStart(s)[0])
    decreases |s|
  {
    if s != [] && IsJsWhitespace(s[0]) {
      TrimStartBlank(s[1..]);
      assert forall i :: 1 <= i < |s| ==> s[i] == s[1..][i - 1];
    }
  }

  lemma {:induction false} TrimEndEmpty(s: string)
    ensures TrimEnd(s) == [] <==> IsBlank(s)
    decreases |s|
  {
    if s != [] && IsJsWhitespace(s[|s| - 1]) {
      TrimEndEmpty(s[..|s| - 1]);
    }
  }

  /** trim() yields the empty string exactly when the input is all whitespace. */
  lemma TrimEmptyIffBlank(s: string)
    ensures Trim(s) == "" <==> IsBlank(s)
  {
    TrimStartBlank(s);
    var t := TrimStart(s);
    TrimEndEmpty(t);
    if t != [] {
      assert !IsBlank(t) by { assert !IsJsWhitespace(t[0]); }
    }
  }
}

=== FILE: label_frequency.dfy ===
/**
 * The per-label detection frequency of `get_dashboard_stats`
 * (backend/app/main.py): `Counter(all_labels).items()`, an insertion-ordered
 * tally with one entry per distinct label.
 */
module LabelFrequency {

  datatype LabelCount = LabelCount(name: string, count: nat)

  /** Reference definition: how often `l` occurs in `labels`. */
  function Count(labels: seq<string>, l: string): nat
    decreases |labels|
  {
    if labels == [] then 0
    else Count(labels[..|labels| - 1], l) + (if labels[|labels| - 1] == l then 1 else 0)
  }

  /** Reference definition: the distinct labels in order of first occurrence. */
  function Distinct(labels: seq<string>): seq<string>
    decreases |labels|
  {
    if labels == [] then []
    else
      var prefix := labels[..|labels| - 1];
      var x := labels[|labels| - 1];
      if x in prefix then Distinct(prefix) else Distinct(prefix) + [x]
  }

  /** The position of the entry named `l`, or |tally| when there is none. */
  function FindEntry(tally: seq<LabelCount>, l: string): (k: nat)
    ensures k <= |tally|
    ensures k < |tally| ==> tally[k].name == l
    ensures k == |tally| ==> forall i :: 0 <= i < |tally| ==> tally[i].name != l
    decreases |tally|
  {
    if tally == [] then 0
    else if tally[0].name == l then 0
    else 1 + FindEntry(tally[1..], l)
  }

  /** The Counter: each label bumps its entry, or opens a new entry at the end. */
  function Tally(labels: seq<string>): seq<LabelCount>
    decreases |labels|
  {
    if labels == [] then []
    else
      var t := Tally(labels[..|labels| - 1]);
      var x := labels[|labels| - 1];
      var k := FindEntry(t, x);
      if k < |t| then t[k := LabelCount(x, t[k].count + 1)] else t + [LabelCount(x, 1)]
  }

  function Sum(tally: seq<LabelCount>): nat
    decreases |tally|
  {
    if tally == [] then 0 else Sum(tally[..|tally| - 1]) + tally[|tally| - 1].count
  }

  /** The tally of `labels` pairs each distinct label, in first-occurrence order, with its count. */
  ghost predicate TallyOf(labels: seq<string>, tally: seq<LabelCount>)
  {
    var names := Distinct(labels);
    && |tally| == |names|
    && forall i :: 0 <= i < |tally| ==> tally[i] == LabelCount(names[i], Count(labels, names[i]))
  }

  lemma {:induction false} DistinctMembers(labels: seq<string>)
    ensures forall l :: l in Distinct(labels) <==> l in labels
    ensures forall i, j :: 0 <= i < j < |Distinct(labels)| ==> Distinct(labels)[i] != Distinct(labels)[j]
    decreases |labels|
  {
    if labels != [] {
      var prefix := labels[..|labels| - 1];
      DistinctMembers(prefix);
      assert labels == prefix + [labels[|labels| - 1]];
    }
  }

  lemma {:induction false} CountAbsent(labels: seq<string>, l: string)
    requires l !in labels
    ensures Count(labels, l) == 0
    decreases |labels|
  {
    if labels != [] {
      var prefix := labels[..|labels| - 1];
      assert forall y :: y in prefix ==> y in labels;
      CountAbsent(prefix, l);
    }
  }

  /** The Counter agrees with the reference definitions. */
  lemma {:induction false} TallyIsCounter(labels: seq<string>)
    ensures TallyOf(labels, Tally(labels))
    decreases |labels|
  {
    if labels != [] {
      var prefix := labels[..|labels| - 1];
      var x := labels[|labels| - 1];
      TallyIsCounter(prefix);
      DistinctMembers(prefix);
      var t := Tally(prefix);
      var names := Distinct(prefix);
      var k := FindEntry(t, x);
      if x in prefix {
        var j :| 0 <= j < |names| && names[j] == x;
        assert t[j].name == x;
        assert k < |t|;
        assert k == j;
      } else {
        assert forall i :: 0 <= i < |t| ==> t[i].name == names[i];
        assert k == |t|;
        CountAbsent(prefix, x);
      }
    }
  }

  /** The labels a tally has entries for, in entry order. */
  function Names(tally: seq<LabelCount>): (names: seq<string>)
    ensures |names| == |tally| && forall i :: 0 <= i < |tally| ==> names[i] == tally[i].name
  {
    seq(|tally|, i requires 0 <= i < |tally| => tally[i].name)
  }

  /** One entry per distinct label, no label twice, each with that label's count. */
  lemma EntriesAreDistinctLabels(labels: seq<string>)
    ensures forall l :: l in labels <==> l in Names(Tally(labels))
    ensures forall i, j :: 0 <= i < j < |Tally(labels)| ==> Tally(labels)[i].name != Tally(labels)[j].name
    ensures forall i :: 0 <= i < |Tally(labels)| ==> Tally(labels)[i].count == Count(labels, Tally(labels)[i].name)
  {
    TallyIsCounter(labels);
    DistinctMembers(labels);
    assert Names(Tally(labels)) == Distinct(labels);
  }

  /** Entries appear in order of each label's first occurrence. */
  lemma FirstOccurrenceOrder(labels: seq<string>)
    ensures Names(Tally(labels)) == Distinct(labels)
  {
    TallyIsCounter(labels);
  }

  /** The position of the first occurrence of `l`. */
  function FirstIndex(labels: seq<string>, l: string): (k: nat)
    requires l in labels
    ensures k < |labels| && labels[k] == l
    ensures forall i :: 0 <= i < k ==> labels[i] != l
  {
    if labels[0] == l then 0 else 1 + FirstIndex(labels[1..], l)
  }

  /** Appending a label does not move the first occurrence of an earlier one. */
  lemma FirstIndexExtend(prefix: seq<string>, x: string, l: string)
    requires l in prefix
    ensures FirstIndex(prefix + [x], l) == FirstIndex(prefix, l) < |prefix|
  {
    var labels := prefix + [x];
    var k := FirstIndex(labels, l);
    var k' := FirstIndex(prefix, l);
    assert labels[k'] == l;
    assert k <= k';
    assert prefix[k] == l;
  }

  /** Distinct lists the labels in strictly increasing order of their first occurrence. */
  lemma {:induction false} DistinctByFirstOccurrence(labels: seq<string>)
    ensures forall l :: l in Distinct(labels) ==> l in labels
    ensures forall i, j :: 0 <= i < j < |Distinct(labels)| ==>
              FirstIndex(labels, Distinct(labels)[i]) < FirstIndex(labels, Distinct(labels)[j])
    decreases |labels|
  {
    DistinctMembers(labels);
    if labels != [] {
      var prefix := labels[..|labels| - 1];
      var x := labels[|labels| - 1];
      assert labels == prefix + [x];
      DistinctByFirstOccurrence(prefix);
      DistinctMembers(prefix);
      var d := Distinct(prefix);
      forall i | 0 <= i < |d|
        ensures FirstIndex(labels, d[i]) == FirstIndex(prefix, d[i]) < |prefix|
      {
        FirstIndexExtend(prefix, x, d[i]);
      }
      if x !in prefix {
        var k := FirstIndex(labels, x);
        assert forall i :: 0 <= i < |prefix| ==> labels[i] == prefix[i];
        assert k == |prefix|;
        assert Distinct(labels) == d + [x];
      }
    }
  }

  lemma {:induction false} SumUpdate(tally: seq<LabelCount>, k: nat, e: LabelCount)
    requires k < |tally|
    ensures Sum(tally[k := e]) == Sum(tally) - tally[k].count + e.count
    decreases |tally|
  {
    var n := |tally| - 1;
    if k < n {
      assert tally[k := e][..n] == tally[..n][k := e];
      SumUpdate(tally[..n], k, e);
    } else {
      assert tally[k := e][..n] == tally[..n];
    }
  }

  /** The counts add up to the number of labels. */
  lemma {:induction false} CountsSumToTotal(labels: seq<string>)
    ensures Sum(Tally(labels)) == |labels|
    decreases |labels|
  {
    if labels != [] {
      var prefix := labels[..|labels| - 1];
      var x := labels[|labels| - 1];
      CountsSumToTotal(prefix);
      var t := Tally(prefix);
      var k := FindEntry(t, x);
      if k < |t| {
        var e := LabelCount(x, t[k].count + 1);
        assert Tally(labels) == t[k := e];
        SumUpdate(t, k, e);
      } else {
        var t' := t + [LabelCount(x, 1)];
        assert Tally(labels) == t';
        assert t'[..|t|] == t;
        assert Sum(t') == Sum(t) + 1;
      }
    }
  }
}

=== FILE: live_session.dfy ===
/**
 * The live mission console (frontend/src/components/LiveStream.js) as one
 * session object: the React state and refs become fields, the socket and
 * timer callbacks become methods, the current time is a parameter, and the
 * side effects (frames sent, toasts, canvas draws, sighting posts) are
 * recorded in fields so that what the console does can be stated.
 */
module LiveStream {
  import opened Wrappers
  import opened Threat
  import opened Telemetry
  import opened Overlay
  import opened JsText

  /** The socket's readyState. */
  datatype ChannelState = Connecting | Open | Closing | Closed

  /** `{ image, detections, server_time_ms }` as received; the image is an undecoded data URI. */
  datatype InboundMessage = InboundMessage(image: string, detections: seq<Detection>, serverTimeMs: int)

  /** Toasts raised by the console. */
  datatype Notification = ThreatToast(toast: Toast) | SightingLogged | SightingFailed

  /** The body of a `/log-sighting` post; the snapshot is the canvas content at that moment. */
  datatype SightingPost = SightingPost(timestamp: string, notes: string, snapshot: seq<DrawCmd>, detections: seq<Detection>)

  class Session {
    var isStreaming: bool
    var isConnected: bool
    var channel: ChannelState
    var stats: Stats
    var detections: seq<Detection>
    var currentThreat: ThreatLevel
    var sendTime: int
    var frameCount: nat
    var lastFpsTime: int
    var lastImage: Option<ImageSize>
    /** The 100 ms capture interval is installed. */
    var captureActive: bool
    /** The camera's tracks are running. */
    var tracksLive: bool
    /** The output canvas: what has been drawn since it was last cleared. */
    var canvas: seq<DrawCmd>
    /** The send time of every frame put on the socket. */
    var sentAt: seq<int>
    var notifications: seq<Notification>
    var posts: seq<SightingPost>
    /** Sighting posts whose outcome has not arrived yet. */
    var pendingPosts: nat

    /** The FPS window held in the frame-count and anchor refs and in stats.fps. */
    function Window(): FpsWindow
      reads this
    {
      FpsWindow(frameCount, lastFpsTime, stats.fps)
    }

    constructor ()
      ensures !isStreaming && !isConnected && channel == Connecting
      ensures stats == Stats(0, 0, 0) && Window() == InitialWindow && sendTime == 0
      ensures detections == [] && currentThreat == NONE && lastImage == None
      ensures !captureActive && !tracksLive
      ensures canvas == [] && sentAt == [] && notifications == [] && posts == [] && pendingPosts == 0
    {
      isStreaming, isConnected, channel := false, false, Connecting;
      stats, detections, currentThreat := Stats(0, 0, 0), [], NONE;
      sendTime, frameCount, lastFpsTime := 0, 0, 0;
      lastImage := None;
      captureActive, tracksLive := false, false;
      canvas, sentAt, notifications, posts := [], [], [], [];
      pendingPosts := 0;
    }

    /** onopen */
    method OnOpen()
      modifies this`channel, this`isConnected
      ensures channel == Open && isConnected
    {
      channel := Open;
      isConnected := true;
    }

    /** onclose */
    method OnClose()
      modifies this`channel, this`isConnected
      ensures channel == Closed && !isConnected
    {
      channel := Closed;
      isConnected := false;
    }

    /**
     * onmessage at time `now`: telemetry, then the edge-triggered threat
     * update, then the detections. The image is decoded asynchronously:
     * see OnImageDecoded.
     */
    method OnMessage(msg: InboundMessage, now: int)
      modifies this`stats, this`frameCount, this`lastFpsTime, this`currentThreat,
               this`notifications, this`detections
      ensures stats.latency == now - sendTime && stats.serverTime == msg.serverTimeMs
      ensures Window() == FpsTick(old(Window()), now)
      ensures var u := UpdateThreat(old(currentThreat), msg.detections);
              && currentThreat == u.level
              && notifications == old(notifications) + (if u.toast.Some? then [ThreatToast(u.toast.value)] else [])
      ensures detections == msg.detections
    {
      var latency := now - sendTime;
      frameCount := frameCount + 1;
      if now - lastFpsTime > WindowMs {
        stats := Stats(latency, msg.serverTimeMs, frameCount);
        frameCount := 0;
        lastFpsTime := now;
      } else {
        stats := stats.(latency := latency, serverTime := msg.serverTimeMs);
      }

      var newThreat := GetThreatLevel(Some(msg.detections));
      DisplayLabelInjective(newThreat, currentThreat);
      DisplayLabelInjective(newThreat, CRITICAL);
      DisplayLabelInjective(newThreat, LOW);
      if DisplayLabel(newThreat) != DisplayLabel(currentThreat) {
        currentThreat := newThreat;
        if DisplayLabel(newThreat) == DisplayLabel(CRITICAL) {
          CriticalHasMention(msg.detections);
          var k := FirstCriticalMention(msg.detections);
          notifications := notifications + [ThreatToast(CriticalAlert(msg.detections[k].name))];
        } else if DisplayLabel(newThreat) == DisplayLabel(LOW) {
          notifications := notifications + [ThreatToast(AnomalyWarning(msg.detections[0].name))];
        }
      }
      detections := msg.detections;
    }

    /** img.onload: the decoded image becomes the one the renderer uses. */
    method OnImageDecoded(img: ImageSize)
      modifies this`lastImage
      ensures lastImage == Some(img)
    {
      lastImage := Some(img);
    }

    /**
     * The render effect: nothing happens until an image has decoded; then
     * the canvas is cleared, the image drawn letterboxed, and every
     * detection outlined and captioned.
     */
    method Render()
      modifies this`canvas
      ensures lastImage.None? ==> canvas == old(canvas)
      ensures lastImage.Some? ==> canvas == OverlayCommands(lastImage.value, detections)
    {
      if lastImage.Some? {
        var img := lastImage.value;
        var f := Letterbox(CanvasWidth, CanvasHeight, img);
        canvas := [];
        canvas := canvas + [DrawImage(f.shiftX, f.shiftY, f.drawWidth, f.drawHeight)];
        var i := 0;
        while i < |detections|
          invariant 0 <= i <= |detections|
          invariant canvas == [DrawImage(f.shiftX, f.shiftY, f.drawWidth, f.drawHeight)] + BoxCommands(f, detections[..i])
        {
          var d := detections[i];
          var r := MapBox(f, d.box);
          canvas := canvas + [StrokeRect(r)];
          canvas := canvas + [FillText(Caption(d.name, d.confidence), r.x, r.y - CaptionLift)];
          assert detections[..i + 1][..i] == detections[..i];
          i := i + 1;
        }
        assert detections[..i] == detections;
      }
    }

    /** sendFrame: only while the socket is OPEN, stamping the send time just before the send. */
    method SendFrame(now: int)
      modifies this`sendTime, this`sentAt
      ensures channel == Open ==> sendTime == now && sentAt == old(sentAt) + [now]
      ensures channel != Open ==> sendTime == old(sendTime) && sentAt == old(sentAt)
    {
      if channel == Open {
        sendTime := now;
        sentAt := sentAt + [now];
      }
    }

    /**
     * The socket effect re-running because currentThreat changed: its cleanup
     * clears the capture interval and closes the socket, and a new socket is
     * opened. Nothing here installs the capture interval again.
     */
    method OnThreatEffectRerun()
      modifies this`captureActive, this`channel
      ensures !captureActive && channel == Connecting
    {
      captureActive := false;
      channel := Connecting;
    }

    /** One firing of the capture interval; a cleared interval fires no more. */
    method CaptureTick(now: int)
      modifies this`sendTime, this`sentAt
      ensures captureActive && channel == Open ==> sendTime == now && sentAt == old(sentAt) + [now]
      ensures !(captureActive && channel == Open) ==> sendTime == old(sendTime) && sentAt == old(sentAt)
    {
      if captureActive {
        SendFrame(now);
      }
    }

    /** startStreaming; `granted` is whether getUserMedia yields a camera stream. */
    method StartStreaming(granted: bool)
      modifies this`isStreaming, this`captureActive, this`tracksLive
      ensures granted ==> isStreaming && captureActive && tracksLive
      ensures !granted ==> isStreaming == old(isStreaming) && captureActive == old(captureActive)
                           && tracksLive == old(tracksLive)
    {
      if granted {
        tracksLive := true;
        isStreaming := true;
        captureActive := true;
      }
    }

    /**
     * stopStreaming: clears the interval, stops the tracks, and drops the
     * threat level to NONE. Dropping from another level re-runs the socket
     * effect as well, closing the socket and opening a new one; that re-run
     * is the separate step OnThreatEffectRerun.
     */
    method StopStreaming()
      modifies this`isStreaming, this`captureActive, this`tracksLive, this`currentThreat
      ensures !isStreaming && !captureActive && !tracksLive && currentThreat == NONE
    {
      captureActive := false;
      tracksLive := false;
      isStreaming := false;
      currentThreat := NONE;
    }

    /**
     * handleLogSighting: `notes` is what the prompt returned (None when
     * cancelled). Only notes with a non-whitespace character are posted,
     * together with the current canvas and detections.
     */
    method HandleLogSighting(notes: Option<string>, timestamp: string)
      modifies this`posts, this`pendingPosts
      ensures notes.Some? && !IsBlank(notes.value) ==>
                posts == old(posts) + [SightingPost(timestamp, notes.value, canvas, detections)]
                && pendingPosts == old(pendingPosts) + 1
      ensures notes.None? || IsBlank(notes.value) ==> posts == old(posts) && pendingPosts == old(pendingPosts)
    {
      if notes.Some? && notes.value != "" && Trim(notes.value) != "" {
        TrimEmptyIffBlank(notes.value);
        posts := posts + [SightingPost(timestamp, notes.value, canvas, detections)];
        pendingPosts := pendingPosts + 1;
      } else if notes.Some? {
        TrimEmptyIffBlank(notes.value);
      }
    }

    /** The outcome of an earlier post arrives: a success or a failure toast, no retry. */
    method OnSightingPostSettled(ok: bool)
      requires pendingPosts > 0
      modifies this`notifications, this`pendingPosts
      ensures notifications == old(notifications) + [if ok then SightingLogged else SightingFailed]
      ensures pendingPosts == old(pendingPosts) - 1
    {
      notifications := notifications + [if ok then SightingLogged else SightingFailed];
      pendingPosts := pendingPosts - 1;
    }
  }

  /** Capture ticks while the socket is not OPEN put nothing on the wire. */
  method TicksWhileNotOpen(s: Session, times: seq<int>)
    requires s.channel != Open
    modifies s`sendTime, s`sentAt
    ensures s.sentAt == old(s.sentAt) && s.sendTime == old(s.sendTime)
  {
    var i := 0;
    while i < |times|
      invariant 0 <= i <= |times|
      invariant s.sentAt == old(s.sentAt) && s.sendTime == old(s.sendTime)
    {
      s.CaptureTick(times[i]);
      i := i + 1;
    }
  }

  /**
   * A message arrives, the effect re-runs if it changed the level, the socket
   * (new or old) is open, and the capture interval fires at `times`. A level
   * change stops the frames for good; without one, an active capture sends a
   * frame at every firing.
   */
  method MessageThenTicks(s: Session, msg: InboundMessage, now: int, times: seq<int>)
    modifies s`stats, s`frameCount, s`lastFpsTime, s`currentThreat, s`notifications, s`detections,
             s`captureActive, s`channel, s`isConnected, s`sendTime, s`sentAt
    ensures DisplayLabel(s.currentThreat) != DisplayLabel(old(s.currentThreat)) ==>
              !s.captureActive && s.sentAt == old(s.sentAt)
    ensures DisplayLabel(s.currentThreat) == DisplayLabel(old(s.currentThreat)) && old(s.captureActive) ==>
              s.sentAt == old(s.sentAt) + times
  {
    var before := s.currentThreat;
    s.OnMessage(msg, now);
    if DisplayLabel(s.currentThreat) != DisplayLabel(before) {
      s.OnThreatEffectRerun();
    }
    s.OnOpen();
    var i := 0;
    while i < |times|
      invariant 0 <= i <= |times|
      invariant s.channel == Open
      invariant s.captureActive == (DisplayLabel(s.currentThreat) == DisplayLabel(before) && old(s.captureActive))
      invariant DisplayLabel(s.currentThreat) != DisplayLabel(before) ==> s.sentAt == old(s.sentAt)
      invariant s.captureActive ==> s.sentAt == old(s.sentAt) + times[..i]
    {
      s.CaptureTick(times[i]);
      assert times[..i + 1] == times[..i] + [times[i]];
      i := i + 1;
    }
    assert times[..|times|] == times;
  }
}

=== FILE: overlay.dfy ===
/**
 * The overlay renderer of the live console (frontend/src/components/LiveStream.js):
 * the received image is letterboxed into the 640x480 output canvas and each
 * detection box is mapped from the 0..256 normalised space into canvas
 * coordinates. Arithmetic is on exact rationals (`real`).
 */
module Overlay {
  import opened Threat

  type Pos = n: int | n > 0 witness 1

  /** A decoded image's size in pixels. */
  datatype ImageSize = ImageSize(width: Pos, height: Pos)

  /** The output canvas (width="640" height="480"). */
  const CanvasWidth: real := 640.0
  const CanvasHeight: real := 480.0

  /** Side of the normalised box space. */
  const BoxSpace: real := 256.0

  /** A box caption sits this many pixels above the box's top edge. */
  const CaptionLift: real := 5.0

  /** Where and how large the image is drawn. */
  datatype Fit = Fit(ratio: real, shiftX: real, shiftY: real, drawWidth: real, drawHeight: real)

  datatype Rect = Rect(x: real, y: real, width: real, height: real)

  function Min(a: real, b: real): real
  {
    if a <= b then a else b
  }

  /**
   * Letterboxing: the largest scale at which the image fits, with the image
   * centred so that the margins on either side are equal.
   */
  function Letterbox(cw: real, ch: real, img: ImageSize): (f: Fit)
    requires cw > 0.0 && ch > 0.0
    ensures f.ratio == Min(cw / img.width as real, ch / img.height as real) && f.ratio > 0.0
    ensures f.drawWidth == img.width as real * f.ratio && f.drawHeight == img.height as real * f.ratio
    ensures f.drawWidth <= cw && f.drawHeight <= ch
    ensures f.drawWidth == cw || f.drawHeight == ch
    ensures 0.0 <= f.shiftX && 0.0 <= f.shiftY
    ensures f.shiftX + f.drawWidth + f.shiftX == cw && f.shiftY + f.drawHeight + f.shiftY == ch
  {
    var iw := img.width as real;
    var ih := img.height as real;
    var ratio := Min(cw / iw, ch / ih);
    assert iw * (cw / iw) == cw && ih * (ch / ih) == ch;
    ScaleMonotone(iw, ratio, cw / iw);
    ScaleMonotone(ih, ratio, ch / ih);
    Fit(ratio, (cw - iw * ratio) / 2.0, (ch - ih * ratio) / 2.0, iw * ratio, ih * ratio)
  }

  lemma ScaleMonotone(k: real, a: real, b: real)
    requires k >= 0.0 && a <= b
    ensures k * a <= k * b
  {
  }

  /**
   * One axis of the box mapping: an interval [lo, hi] of the normalised space,
   * scaled by draw / 256 and shifted, stays within [shift, shift + draw].
   */
  lemma AxisInside(shift: real, draw: real, lo: int, hi: int)
    requires draw >= 0.0 && 0 <= lo <= hi <= 256
    ensures var s := draw / BoxSpace;
      && shift <= shift + lo as real * s
      && shift + lo as real * s + (hi - lo) as real * s <= shift + draw
      && (hi - lo) as real * s * BoxSpace == (hi - lo) as real * draw
  {
    var s := draw / BoxSpace;
    assert s >= 0.0;
    assert s * BoxSpace == draw;
    assert lo as real * s >= 0.0;
    assert lo as real * s + (hi - lo) as real * s == hi as real * s;
    assert (256 - hi) as real * s >= 0.0;
    assert hi as real * s + (256 - hi) as real * s == draw;
  }

  /** A detection box in canvas coordinates. */
  function MapBox(f: Fit, b: Box): Rect
  {
    var scaleX := f.drawWidth / BoxSpace;
    var scaleY := f.drawHeight / BoxSpace;
    Rect(f.shiftX + b.x1 as real * scaleX, f.shiftY + b.y1 as real * scaleY,
         (b.x2 - b.x1) as real * scaleX, (b.y2 - b.y1) as real * scaleY)
  }

  /**
   * A box inside the normalised space lands inside the drawn image, and its
   * size is the box's share of the drawn image's size.
   */
  lemma BoxInsideImage(cw: real, ch: real, img: ImageSize, b: Box)
    requires cw > 0.0 && ch > 0.0
    requires 0 <= b.x1 <= b.x2 <= 256 && 0 <= b.y1 <= b.y2 <= 256
    ensures var f := Letterbox(cw, ch, img); var r := MapBox(f, b);
      && f.shiftX <= r.x && r.x + r.width <= f.shiftX + f.drawWidth
      && f.shiftY <= r.y && r.y + r.height <= f.shiftY + f.drawHeight
      && r.width * BoxSpace == (b.x2 - b.x1) as real * f.drawWidth
      && r.height * BoxSpace == (b.y2 - b.y1) as real * f.drawHeight
  {
    var f := Letterbox(cw, ch, img);
    AxisInside(f.shiftX, f.drawWidth, b.x1, b.x2);
    AxisInside(f.shiftY, f.drawHeight, b.y1, b.y2);
  }

  /** A 320x240 image in the 640x480 canvas: ratio 2, no margins; box [0,0,128,128] becomes (0,0,320,240). */
  lemma ReferenceFrame()
    ensures Letterbox(CanvasWidth, CanvasHeight, ImageSize(320, 240)) == Fit(2.0, 0.0, 0.0, 640.0, 480.0)
    ensures MapBox(Fit(2.0, 0.0, 0.0, 640.0, 480.0), Box(0, 0, 128, 128)) == Rect(0.0, 0.0, 320.0, 240.0)
  {
  }

  /**
   * The right edge of a mapped box stays within the drawn image exactly when
   * the box's x2 is within the 0..256 space.
   */
  lemma RightEdgeInsideIff(cw: real, ch: real, img: ImageSize, b: Box)
    requires cw > 0.0 && ch > 0.0
    ensures var f := Letterbox(cw, ch, img); var r := MapBox(f, b);
      r.x + r.width <= f.shiftX + f.drawWidth <==> b.x2 <= 256
  {
    var f := Letterbox(cw, ch, img);
    var s := f.drawWidth / BoxSpace;
    assert s > 0.0;
    var r := MapBox(f, b);
    assert r.x + r.width == f.shiftX + b.x2 as real * s;
    assert f.drawWidth == 256.0 * s;
    if b.x2 <= 256 {
      ScaleMonotone(s, b.x2 as real, 256.0);
    } else {
      assert (b.x2 - 256) as real * s > 0.0;
    }
  }

  /**
   * A box of the size the server draws in a 320x240 frame's pixels, at the
   * far end of its range, runs past the right edge of the drawn image.
   */
  lemma PixelBoxLeavesImage()
    ensures var f := Letterbox(CanvasWidth, CanvasHeight, ImageSize(320, 240));
            var r := MapBox(f, Box(188, 116, 288, 216));
            r.x + r.width > f.shiftX + f.drawWidth
  {
    RightEdgeInsideIff(CanvasWidth, CanvasHeight, ImageSize(320, 240), Box(188, 116, 288, 216));
  }

  // ---- Draw commands ----

  /** The caption text `{label} ({confidence*100}%)`; number formatting is not modelled. */
  datatype Caption = Caption(name: string, confidence: real)

  datatype DrawCmd =
    | DrawImage(x: real, y: real, width: real, height: real)
    | StrokeRect(rect: Rect)
    | FillText(caption: Caption, x: real, y: real)

  /** The outline of one detection and its caption 5 px above the top edge. */
  function DetectionCommands(f: Fit, d: Detection): (r: seq<DrawCmd>)
    ensures |r| == 2 && r[0].StrokeRect? && r[1].FillText?
    ensures r[0].rect == MapBox(f, d.box)
    ensures r[1].caption == Caption(d.name, d.confidence)
    ensures r[1].x == r[0].rect.x && r[1].y == r[0].rect.y - CaptionLift
  {
    var r := MapBox(f, d.box);
    [StrokeRect(r), FillText(Caption(d.name, d.confidence), r.x, r.y - CaptionLift)]
  }

  /** The commands for a list of detections, in list order. */
  function BoxCommands(f: Fit, ds: seq<Detection>): (r: seq<DrawCmd>)
    ensures |r| == 2 * |ds|
    decreases |ds|
  {
    if ds == [] then [] else BoxCommands(f, ds[..|ds| - 1]) + DetectionCommands(f, ds[|ds| - 1])
  }

  /** What the canvas holds after a render: the letterboxed image, then every detection. */
  function OverlayCommands(img: ImageSize, ds: seq<Detection>): seq<DrawCmd>
  {
    var f := Letterbox(CanvasWidth, CanvasHeight, img);
    [DrawImage(f.shiftX, f.shiftY, f.drawWidth, f.drawHeight)] + BoxCommands(f, ds)
  }

  /** Detection k is drawn by commands 2k (its outline) and 2k+1 (its caption). */
  lemma {:induction false} BoxCommandsAt(f: Fit, ds: seq<Detection>, k: nat)
    requires k < |ds|
    ensures |BoxCommands(f, ds)| == 2 * |ds|
    ensures BoxCommands(f, ds)[2 * k] == StrokeRect(MapBox(f, ds[k].box))
    ensures BoxCommands(f, ds)[2 * k + 1] ==
              FillText(Caption(ds[k].name, ds[k].confidence),
                       MapBox(f, ds[k].box).x, MapBox(f, ds[k].box).y - CaptionLift)
    decreases |ds|
  {
    var n := |ds| - 1;
    if k < n {
      BoxCommandsAt(f, ds[..n], k);
      assert ds[..n][k] == ds[k];
    } else if n > 0 {
      BoxCommandsAt(f, ds[..n], 0);
    }
  }
}

=== FILE: padding.dfy ===
/**
 * The letterbox padding of backend/app/processing.py: `resize_with_padding`
 * centres a thumbnail on a black canvas of the target size and returns the
 * box that `enhance_image_with_model` later crops back out. PIL's
 * `thumbnail` is a parameter: the thumbnail size it produced, which fits the
 * target. Images are rows of pixels of any pixel type.
 */
module Processing {
  type Pos = n: int | n > 0 witness 1

  datatype Size = Size(width: Pos, height: Pos)

  /** A PIL box: left and upper inclusive, right and lower exclusive. */
  datatype CropBox = CropBox(left: int, upper: int, right: int, lower: int)

  /** The padded canvas size, where the thumbnail was pasted, and the crop box. */
  datatype Padded = Padded(canvas: Size, pasteX: int, pasteY: int, crop: CropBox)

  /** The square the enhancement network works on. */
  const ModelInput: Size := Size(256, 256)

  predicate FitsWithin(inner: Size, outer: Size)
  {
    inner.width <= outer.width && inner.height <= outer.height
  }

  predicate InsideCanvas(b: CropBox, canvas: Size)
  {
    0 <= b.left <= b.right <= canvas.width && 0 <= b.upper <= b.lower <= canvas.height
  }

  /**
   * resize_with_padding: the offsets are floor halves of the slack (the slack
   * is never negative, so floor and Euclidean division agree).
   */
  function ResizeWithPadding(thumb: Size, target: Size): (p: Padded)
    requires FitsWithin(thumb, target)
    ensures p.canvas == target
    ensures 0 <= p.pasteX && 0 <= p.pasteY
    ensures p.crop.left == p.pasteX && p.crop.upper == p.pasteY
    ensures p.crop.right - p.crop.left == thumb.width && p.crop.lower - p.crop.upper == thumb.height
    ensures InsideCanvas(p.crop, target)
    // centred: the right (lower) margin exceeds the left (upper) one by at most one pixel
    ensures 0 <= (target.width - p.crop.right) - p.crop.left <= 1
    ensures 0 <= (target.height - p.crop.lower) - p.crop.upper <= 1
  {
    var pasteX := (target.width - thumb.width) / 2;
    var pasteY := (target.height - thumb.height) / 2;
    Padded(target, pasteX, pasteY, CropBox(pasteX, pasteY, pasteX + thumb.width, pasteY + thumb.height))
  }

  /** A thumbnail that already fills the target is pasted at the origin and cropped whole. */
  lemma FullSizeNeedsNoPadding(target: Size)
    ensures ResizeWithPadding(target, target).crop == CropBox(0, 0, target.width, target.height)
  {
  }

  /** A 200x100 thumbnail in the 256x256 model input sits at (28, 78). */
  lemma WideThumbnailExample()
    ensures ResizeWithPadding(Size(200, 100), ModelInput).crop == CropBox(28, 78, 228, 178)
  {
  }

  // ---- Pixels ----

  /** `img` has `size.height` rows of `size.width` pixels. */
  predicate HasSize<T>(img: seq<seq<T>>, size: Size)
  {
    |img| == size.height && forall r :: 0 <= r < |img| ==> |img[r]| == size.width
  }

  /** Image.new: a canvas filled with one colour. */
  function Fill<T>(colour: T, size: Size): (img: seq<seq<T>>)
    ensures HasSize(img, size)
    ensures forall r, c :: 0 <= r < size.height && 0 <= c < size.width ==> img[r][c] == colour
  {
    seq(size.height, _ => seq(size.width, _ => colour))
  }

  /** Image.paste: `img` overwrites the canvas from (x, y) on. */
  function Paste<T>(canvas: seq<seq<T>>, canvasSize: Size, img: seq<seq<T>>, imgSize: Size, x: int, y: int): (r: seq<seq<T>>)
    requires HasSize(canvas, canvasSize) && HasSize(img, imgSize)
    requires 0 <= x && x + imgSize.width <= canvasSize.width
    requires 0 <= y && y + imgSize.height <= canvasSize.height
    ensures HasSize(r, canvasSize)
    ensures forall i, j :: 0 <= i < imgSize.height && 0 <= j < imgSize.width ==> r[y + i][x + j] == img[i][j]
    ensures forall i, j ::
              (0 <= i < canvasSize.height && 0 <= j < canvasSize.width &&
               !(y <= i < y + imgSize.height && x <= j < x + imgSize.width)) ==> r[i][j] == canvas[i][j]
  {
    seq(canvasSize.height, i requires 0 <= i < canvasSize.height =>
      seq(canvasSize.width, j requires 0 <= j < canvasSize.width =>
        if y <= i < y + imgSize.height && x <= j < x + imgSize.width then img[i - y][j - x] else canvas[i][j]))
  }

  /** Image.crop with a box inside the image. */
  function Crop<T>(img: seq<seq<T>>, size: Size, box: CropBox): (r: seq<seq<T>>)
    requires HasSize(img, size) && InsideCanvas(box, size)
    ensures |r| == box.lower - box.upper
    ensures forall i :: 0 <= i < |r| ==> |r[i]| == box.right - box.left
    ensures forall i, j :: 0 <= i < box.lower - box.upper && 0 <= j < box.right - box.left ==>
                           r[i][j] == img[box.upper + i][box.left + j]
  {
    seq(box.lower - box.upper, i requires 0 <= i < box.lower - box.upper =>
      seq(box.right - box.left, j requires 0 <= j < box.right - box.left => img[box.upper + i][box.left + j]))
  }

  /** The padded picture resize_with_padding returns: the thumbnail centred on black. */
  function PaddedImage<T>(thumb: seq<seq<T>>, thumbSize: Size, target: Size, black: T): (r: seq<seq<T>>)
    requires HasSize(thumb, thumbSize) && FitsWithin(thumbSize, target)
    ensures HasSize(r, target)
  {
    var p := ResizeWithPadding(thumbSize, target);
    Paste(Fill(black, target), target, thumb, thumbSize, p.pasteX, p.pasteY)
  }

  /** Cropping the padded picture with the returned box gives the thumbnail back. */
  lemma CropUndoesPadding<T>(thumb: seq<seq<T>>, thumbSize: Size, target: Size, black: T)
    requires HasSize(thumb, thumbSize) && FitsWithin(thumbSize, target)
    ensures Crop(PaddedImage(thumb, thumbSize, target, black), target, ResizeWithPadding(thumbSize, target).crop) == thumb
  {
    var p := ResizeWithPadding(thumbSize, target);
    var padded := PaddedImage(thumb, thumbSize, target, black);
    var back := Crop(padded, target, p.crop);
    assert padded == Paste(Fill(black, target), target, thumb, thumbSize, p.pasteX, p.pasteY);
    forall i | 0 <= i < |back|
      ensures back[i] == thumb[i]
    {
      forall j | 0 <= j < |back[i]|
        ensures back[i][j] == thumb[i][j]
      {
        assert back[i][j] == padded[p.pasteY + i][p.pasteX + j];
      }
    }
  }

  /** Every pixel outside the crop box is the padding colour. */
  lemma PaddingIsBlack<T>(thumb: seq<seq<T>>, thumbSize: Size, target: Size, black: T, i: int, j: int)
    requires HasSize(thumb, thumbSize) && FitsWithin(thumbSize, target)
    requires 0 <= i < target.height && 0 <= j < target.width
    requires var b := ResizeWithPadding(thumbSize, target).crop;
             !(b.upper <= i < b.lower && b.left <= j < b.right)
    ensures PaddedImage(thumb, thumbSize, target, black)[i][j] == black
  {
    var p := ResizeWithPadding(thumbSize, target);
    assert PaddedImage(thumb, thumbSize, target, black) == Paste(Fill(black, target), target, thumb, thumbSize, p.pasteX, p.pasteY);
  }

  /** The image sizes along enhance_image_with_model. */
  datatype EnhanceSizes = EnhanceSizes(networkInput: Size, cropped: Size, final: Size)

  /**
   * enhance_image_with_model: the network sees the 256x256 padded picture,
   * its output is cropped with the box from the padding step, and the crop is
   * resized back to the original size. `output` is the network's output.
   */
  function EnhanceImageWithModel<T>(original: Size, thumbSize: Size, output: seq<seq<T>>): (r: (EnhanceSizes, seq<seq<T>>))
    requires FitsWithin(thumbSize, ModelInput) && HasSize(output, ModelInput)
    ensures r.0.networkInput == ModelInput && r.0.final == original
    ensures r.0.cropped == thumbSize && HasSize(r.1, thumbSize)
    ensures var b := ResizeWithPadding(thumbSize, ModelInput).crop;
            forall i, j :: 0 <= i < thumbSize.height && 0 <= j < thumbSize.width ==> r.1[i][j] == output[b.upper + i][b.left + j]
  {
    var p := ResizeWithPadding(thumbSize, ModelInput);
    (EnhanceSizes(ModelInput, thumbSize, original), Crop(output, ModelInput, p.crop))
  }

  /** With an identity network the cropped region is exactly the thumbnail. */
  lemma IdentityNetworkRecoversThumbnail<T>(original: Size, thumb: seq<seq<T>>, thumbSize: Size, black: T)
    requires HasSize(thumb, thumbSize) && FitsWithin(thumbSize, ModelInput)
    ensures EnhanceImageWithModel(original, thumbSize, PaddedImage(thumb, thumbSize, ModelInput, black)).1 == thumb
  {
    CropUndoesPadding(thumb, thumbSize, ModelInput, black);
  }
}

=== FILE: registry.dfy ===
/**
 * The backend's in-memory registries (backend/app/main.py): the sightings
 * log, the missions log and the background-task table, the endpoints that
 * read and append to them, and the lifecycle of a background video task.
 * Identifiers, clock readings, simulated GPS fixes and random draws are
 * parameters.
 */
module Registry {
  import opened Wrappers
  import opened LabelFrequency

  datatype Detection = Detection(name: string, box: seq<int>, confidence: real)

  datatype Gps = Gps(lat: real, lon: real, depth: real)

  /** The body of a `/log-sighting` post; `detections` may be null. */
  datatype SightingIn = SightingIn(timestamp: string, notes: string, snapshot: string, detections: Option<seq<Detection>>)

  /** An entry of `sightings_log`: the posted fields plus an id and a GPS fix. */
  datatype SightingRecord = SightingRecord(
    id: string, timestamp: string, notes: string, snapshot: string, gps: Gps,
    detections: Option<seq<Detection>>)

  datatype Mission = Mission(id: string, name: string, objectives: string, status: string)

  datatype TaskStatus = PROCESSING | COMPLETED | FAILED

  /** An entry of `tasks`: status, progress percentage, result path and error. */
  datatype TaskEntry = TaskEntry(status: TaskStatus, progress: int, resultPath: Option<string>, error: Option<string>)

  datatype ApiError =
    | NotFound(detail: string)
    /**
     * Building the Mission model failed for the listed required fields; the
     * handler does not catch it, so the request ends in a server error.
     */
    | ValidationError(fields: seq<string>)
    /** An exception the handler does not catch: the request ends in a 500 response. */
    | ServerError

  datatype DashboardStats = DashboardStats(detectionFrequency: seq<LabelCount>, activeMissions: nat, totalSightings: nat)

  // ---- Demo data ----

  const SeedCount: nat := 12

  const AnomalyTypes: seq<string> := [
    "Unusual Geological Formation", "Vessel Debris", "Pipeline Anomaly",
    "Unknown Contact", "Marine Life Cluster", "Seabed Anomaly"
  ]

  /** A 1x1 transparent PNG used as every seeded sighting's snapshot. */
  const PlaceholderSnapshot: string :=
    "data:image/png;base64,iVBORw0KGgoAAAANSUhEUgAAAAEAAAABCAQAAAC1HAwCAAAAC0lEQVR42mNkYAAAAAYAAjCB0C8AAAAASUVORK5CYII="

  /** The random and clock draws behind one seeded sighting. */
  datatype SeedDraw = SeedDraw(
    id: string, timestamp: string, gps: Gps, anomaly: nat,
    x1: int, y1: int, x2: int, y2: int, confidence: real)

  /** What `random.choice`, `random.randint` and `random.uniform` can return. */
  predicate ValidDraw(d: SeedDraw)
  {
    && d.anomaly < |AnomalyTypes|
    && 10 <= d.x1 <= 50 && 10 <= d.y1 <= 50
    && 100 <= d.x2 <= 150 && 100 <= d.y2 <= 150
    && 0.85 <= d.confidence <= 0.99
  }

  /** str.lower() on ASCII text (the anomaly names are ASCII). */
  function AsciiLower(s: string): (r: string)
    ensures |r| == |s|
    ensures forall i :: 0 <= i < |s| ==> ('A' <= s[i] <= 'Z' ==> r[i] as int == s[i] as int + 32)
    ensures forall i :: 0 <= i < |s| ==> (!('A' <= s[i] <= 'Z') ==> r[i] == s[i])
  {
    seq(|s|, i requires 0 <= i < |s| => if 'A' <= s[i] <= 'Z' then (s[i] as int + 32) as char else s[i])
  }

  function SeedSighting(d: SeedDraw): SightingRecord
    requires ValidDraw(d)
  {
    var kind := AnomalyTypes[d.anomaly];
    SightingRecord(
      d.id, d.timestamp, "Initial survey detected a " + AsciiLower(kind) + ".", PlaceholderSnapshot, d.gps,
      Some([Detection(kind, [d.x1, d.y1, d.x2, d.y2], d.confidence)]))
  }

  /** Every seeded sighting carries exactly one well-formed detection of a known anomaly type. */
  lemma SeededSightingShape(d: SeedDraw)
    requires ValidDraw(d)
    ensures var s := SeedSighting(d);
      && s.detections.Some? && |s.detections.value| == 1
      && s.detections.value[0].name in AnomalyTypes
      && |s.detections.value[0].box| == 4
      && s.detections.value[0].box[0] < s.detections.value[0].box[2]
      && s.detections.value[0].box[1] < s.detections.value[0].box[3]
  {
  }

  // ---- Dashboard statistics ----

  /** The labels of a sighting's detections; a null or empty list gives none. */
  function SightingLabels(s: SightingRecord): seq<string>
  {
    match s.detections
    case None => []
    case Some(ds) => seq(|ds|, i requires 0 <= i < |ds| => ds[i].name)
  }

  /** `all_labels`: every detection label of the log, in log order. */
  function AllLabels(log: seq<SightingRecord>): seq<string>
    decreases |log|
  {
    if log == [] then [] else AllLabels(log[..|log| - 1]) + SightingLabels(log[|log| - 1])
  }

  function DetectionCount(s: SightingRecord): nat
  {
    match s.detections
    case None => 0
    case Some(ds) => |ds|
  }

  function TotalDetections(log: seq<SightingRecord>): nat
    decreases |log|
  {
    if log == [] then 0 else TotalDetections(log[..|log| - 1]) + DetectionCount(log[|log| - 1])
  }

  lemma {:induction false} AllLabelsLength(log: seq<SightingRecord>)
    ensures |AllLabels(log)| == TotalDetections(log)
    decreases |log|
  {
    if log != [] {
      AllLabelsLength(log[..|log| - 1]);
    }
  }

  /** The detection frequencies add up to the number of detections in the log. */
  lemma FrequencySumsToDetections(log: seq<SightingRecord>)
    ensures Sum(Tally(AllLabels(log))) == TotalDetections(log)
  {
    CountsSumToTotal(AllLabels(log));
    AllLabelsLength(log);
  }

  /** A sighting without detections changes no frequency. */
  lemma EmptySightingAddsNothing(log: seq<SightingRecord>, s: SightingRecord)
    requires s.detections.None? || s.detections.value == []
    ensures Tally(AllLabels(log + [s])) == Tally(AllLabels(log))
  {
    assert (log + [s])[..|log|] == log;
    assert SightingLabels(s) == [];
    assert AllLabels(log + [s]) == AllLabels(log);
  }

  // ---- Lookup guards ----

  /** GET /tasks/{task_id}/status */
  function GetTaskStatus(tasks: map<string, TaskEntry>, taskId: string): (r: Result<TaskEntry, ApiError>)
    ensures r.Failure? <==> taskId !in tasks
    ensures r.Success? ==> r.value == tasks[taskId]
    ensures r.Failure? ==> r.error == NotFound("Task not found")
  {
    if taskId in tasks then Success(tasks[taskId]) else Failure(NotFound("Task not found"))
  }

  /** GET /results/{task_id}; `existing` is the set of paths present on disk. */
  function GetResult(tasks: map<string, TaskEntry>, taskId: string, existing: set<string>): (r: Result<string, ApiError>)
    ensures r.Success? <==>
              && taskId in tasks && tasks[taskId].status == COMPLETED
              && tasks[taskId].resultPath.Some? && tasks[taskId].resultPath.value != ""
              && tasks[taskId].resultPath.value in existing
    ensures r.Success? ==> r.value == tasks[taskId].resultPath.value
    ensures (taskId !in tasks || tasks[taskId].status != COMPLETED) ==>
              r == Failure(NotFound("Result not available yet."))
    ensures (taskId in tasks && tasks[taskId].status == COMPLETED && r.Failure?) ==>
              r.error == NotFound("Result file not found.")
  {
    if taskId !in tasks || tasks[taskId].status != COMPLETED then
      Failure(NotFound("Result not available yet."))
    else
      var path := tasks[taskId].resultPath;
      if path.None? || path.value == "" || path.value !in existing then Failure(NotFound("Result file not found."))
      else Success(path.value)
  }

  /** A result is served only for a task whose status lookup succeeds with COMPLETED. */
  lemma ResultOnlyWhenCompleted(tasks: map<string, TaskEntry>, taskId: string, existing: set<string>)
    requires GetResult(tasks, taskId, existing).Success?
    ensures GetTaskStatus(tasks, taskId).Success? && GetTaskStatus(tasks, taskId).value.status == COMPLETED
  {
  }

  /**
   * GET /export-report over the sighting log. `pdfEncodes` says whether the
   * finished document survives the Latin-1 encode the handler applies to it;
   * that depends on the PDF library and on the characters in the log, and an
   * encode failure is not caught. A snapshot that cannot be decoded is caught
   * per sighting and does not fail the report.
   */
  function ExportReport(log: seq<SightingRecord>, pdfEncodes: bool): (r: Result<nat, ApiError>)
    ensures log == [] <==> r == Failure(NotFound("No sightings logged."))
    ensures r.Success? <==> log != [] && pdfEncodes
    ensures r.Success? ==> r.value == |log|
    ensures log != [] && !pdfEncodes ==> r == Failure(ServerError)
  {
    if log == [] then Failure(NotFound("No sightings logged."))
    else if !pdfEncodes then Failure(ServerError)
    else Success(|log|)
  }

  // ---- Background video task ----

  /** The enhancement of frame `atFrame` (0-based) raises `message`. */
  datatype FrameFault = FrameFault(atFrame: nat, message: string)

  /**
   * What the video libraries report during one run: whether the capture and
   * the writer open, the frame count the container claims, the frames
   * actually read, an enhancement failure if any, and whether a non-empty
   * output file results.
   */
  datatype VideoRun = VideoRun(
    captureOpens: bool, totalFrames: int, writerOpens: bool, framesRead: nat,
    fault: Option<FrameFault>, outputWritten: bool)

  /** Python's `round()` on one argument: to the nearest integer, ties to the even one. */
  function RoundHalfEven(x: real): (n: int)
    ensures x - 0.5 <= n as real <= x + 0.5
    ensures x - x.Floor as real == 0.5 ==> n % 2 == 0
    ensures 0.0 <= x ==> 0 <= n
  {
    var f := x.Floor;
    var frac := x - f as real;
    if frac < 0.5 then f
    else if frac > 0.5 then f + 1
    else if f % 2 == 0 then f else f + 1
  }

  /** Rounding never reverses the order of two values. */
  lemma RoundMonotone(x: real, y: real)
    requires x <= y
    ensures RoundHalfEven(x) <= RoundHalfEven(y)
  {
  }

  /** The exact percentage `done * 100 / total` lies between 0 and 100 while `done <= total`. */
  lemma PercentBounds(done: nat, total: nat)
    requires total > 0
    ensures 0.0 <= (done * 100) as real / total as real
    ensures done <= total ==> (done * 100) as real / total as real <= 100.0
    ensures done == total ==> (done * 100) as real / total as real == 100.0
  {
    var x := (done * 100) as real / total as real;
    assert x * total as real == (done * 100) as real;
    if done <= total {
      assert (done * 100) as real <= 100.0 * total as real;
    }
  }

  /** The progress percentage written after `done` of `totalFrames` frames. */
  function Progress(done: nat, totalFrames: int): (p: int)
    ensures totalFrames > 0 ==>
              (done * 100) as real / totalFrames as real - 0.5 <= p as real <= (done * 100) as real / totalFrames as real + 0.5
    ensures 0 <= p
    ensures done <= totalFrames ==> p <= 100
    ensures totalFrames > 0 && done == totalFrames ==> p == 100
  {
    if totalFrames > 0 then
      PercentBounds(done, totalFrames);
      RoundHalfEven((done * 100) as real / totalFrames as real)
    else 0
  }

  /** Dividing by a positive number keeps the order. */
  lemma DivideKeepsOrder(a: real, b: real, t: real)
    requires a <= b && t > 0.0
    ensures a / t <= b / t
  {
  }

  /** Progress never moves backwards as frames are written. */
  lemma ProgressMonotone(done: nat, more: nat, totalFrames: int)
    requires done <= more
    ensures Progress(done, totalFrames) <= Progress(more, totalFrames)
  {
    if totalFrames > 0 {
      DivideKeepsOrder((done * 100) as real, (more * 100) as real, totalFrames as real);
      RoundMonotone((done * 100) as real / totalFrames as real, (more * 100) as real / totalFrames as real);
    }
  }

  /** The error a run ends with, or None when it completes. */
  function RunError(inPath: string, run: VideoRun): Option<string>
  {
    if !run.captureOpens then Some("OpenCV could not open video file at " + inPath)
    else if !run.writerOpens then Some("Could not open video writer.")
    else if run.fault.Some? && run.fault.value.atFrame < run.framesRead then Some(run.fault.value.message)
    else if !run.outputWritten then Some("Processing finished, but the output file is empty or missing.")
    else None
  }

  /** Frames enhanced and written before the run stopped. */
  function FramesDone(run: VideoRun): nat
  {
    if !run.captureOpens || !run.writerOpens then 0
    else if run.fault.Some? && run.fault.value.atFrame < run.framesRead then run.fault.value.atFrame
    else run.framesRead
  }

  const Started: TaskEntry := TaskEntry(PROCESSING, 0, None, None)

  /**
   * The writes a task entry goes through: it starts PROCESSING at progress 0,
   * stays PROCESSING while progress is written, and ends COMPLETED with a
   * result path or FAILED with an error.
   */
  ghost predicate Lifecycle(trace: seq<TaskEntry>)
  {
    && |trace| >= 2
    && trace[0] == Started
    && (forall i :: 0 <= i < |trace| - 1 ==> trace[i].status == PROCESSING && trace[i].resultPath.None? && trace[i].error.None?)
    && var last := trace[|trace| - 1];
    && (last.status == COMPLETED ==> last.resultPath.Some? && last.error.None?)
    && (last.status == FAILED ==> last.error.Some? && last.resultPath.None?)
    && last.status != PROCESSING
  }

  /** A run of progress writes closed by a final COMPLETED or FAILED write follows the lifecycle. */
  lemma FinishedRunIsLifecycle(written: seq<TaskEntry>, last: TaskEntry)
    requires forall i :: 0 <= i < |written| ==>
               written[i].status == PROCESSING && written[i].resultPath.None? && written[i].error.None?
    requires last.status == COMPLETED ==> last.resultPath.Some? && last.error.None?
    requires last.status == FAILED ==> last.error.Some? && last.resultPath.None?
    requires last.status != PROCESSING
    ensures Lifecycle([Started] + written + [last])
  {
    var trace := [Started] + written + [last];
    assert forall i :: 1 <= i < |trace| - 1 ==> trace[i] == written[i - 1];
  }

  class Registry {
    var sightingsLog: seq<SightingRecord>
    var missionsLog: seq<Mission>
    var tasks: map<string, TaskEntry>

    constructor ()
      ensures sightingsLog == [] && missionsLog == [] && tasks == map[]
    {
      sightingsLog, missionsLog, tasks := [], [], map[];
    }

    /** seed_initial_data: twelve demo sightings, only into an empty log. */
    method SeedInitialData(draws: seq<SeedDraw>)
      requires |draws| == SeedCount && forall i :: 0 <= i < |draws| ==> ValidDraw(draws[i])
      modifies this`sightingsLog
      ensures old(sightingsLog) != [] ==> sightingsLog == old(sightingsLog)
      ensures old(sightingsLog) == [] ==>
                |sightingsLog| == SeedCount &&
                forall i :: 0 <= i < SeedCount ==> sightingsLog[i] == SeedSighting(draws[i])
    {
      if sightingsLog != [] {
        return;
      }
      var i := 0;
      while i < SeedCount
        invariant 0 <= i <= SeedCount
        invariant |sightingsLog| == i
        invariant forall k :: 0 <= k < i ==> sightingsLog[k] == SeedSighting(draws[k])
      {
        sightingsLog := sightingsLog + [SeedSighting(draws[i])];
        i := i + 1;
      }
    }

    /** POST /log-sighting: appends the posted sighting with a fresh id and GPS fix. */
    method LogSighting(s: SightingIn, gps: Gps, id: string) returns (status: string)
      modifies this`sightingsLog
      ensures sightingsLog == old(sightingsLog) +
                [SightingRecord(id, s.timestamp, s.notes, s.snapshot, gps, s.detections)]
      ensures status == "success"
    {
      sightingsLog := sightingsLog + [SightingRecord(id, s.timestamp, s.notes, s.snapshot, gps, s.detections)];
      status := "success";
    }

    /**
     * POST /missions: `name` and `objectives` are required string fields;
     * the status defaults to "Active".
     */
    method CreateMission(data: map<string, string>, id: string) returns (r: Result<Mission, ApiError>)
      modifies this`missionsLog
      ensures r.Success? <==> "name" in data && "objectives" in data
      ensures r.Success? ==>
                && r.value == Mission(id, data["name"], data["objectives"], "Active")
                && missionsLog == old(missionsLog) + [r.value]
      ensures r.Failure? ==> missionsLog == old(missionsLog) && r.error.ValidationError?
    {
      var missing := (if "name" in data then [] else ["name"]) + (if "objectives" in data then [] else ["objectives"]);
      if missing != [] {
        return Failure(ValidationError(missing));
      }
      var mission := Mission(id, data["name"], data["objectives"], "Active");
      missionsLog := missionsLog + [mission];
      return Success(mission);
    }

    /** GET /dashboard-stats, without the random performance series. */
    method GetDashboardStats() returns (stats: DashboardStats)
      ensures stats.detectionFrequency == Tally(AllLabels(sightingsLog))
      ensures stats.totalSightings == |sightingsLog| && stats.activeMissions == |missionsLog|
    {
      var allLabels: seq<string> := [];
      var i := 0;
      while i < |sightingsLog|
        invariant 0 <= i <= |sightingsLog|
        invariant allLabels == AllLabels(sightingsLog[..i])
      {
        var s := sightingsLog[i];
        assert sightingsLog[..i + 1][..i] == sightingsLog[..i];
        if s.detections.Some? && s.detections.value != [] {
          var ds := s.detections.value;
          var j := 0;
          while j < |ds|
            invariant 0 <= j <= |ds|
            invariant allLabels == AllLabels(sightingsLog[..i]) + SightingLabels(s)[..j]
          {
            assert SightingLabels(s)[..j + 1] == SightingLabels(s)[..j] + [ds[j].name];
            allLabels := allLabels + [ds[j].name];
            j := j + 1;
          }
          assert SightingLabels(s)[..j] == SightingLabels(s);
        }
        i := i + 1;
      }
      assert sightingsLog[..i] == sightingsLog;
      stats := DashboardStats(Tally(allLabels), |missionsLog|, |sightingsLog|);
    }

    /**
     * The frame loop of process_video_in_background, on an entry that has just
     * been set to Started: returns the progress writes it makes and the
     * message of the frame that failed, if one did.
     */
    method WriteFrames(taskId: string, run: VideoRun) returns (written: seq<TaskEntry>, failure: Option<string>)
      requires taskId in tasks && tasks[taskId] == Started
      modifies this`tasks
      ensures tasks == old(tasks)[taskId := ([Started] + written)[|written|]]
      ensures forall i :: 0 <= i < |written| ==>
                written[i].status == PROCESSING && written[i].resultPath.None? && written[i].error.None?
      ensures failure.None? <==> run.fault.None? || run.fault.value.atFrame >= run.framesRead
      ensures failure.Some? ==> failure == Some(run.fault.value.message)
      ensures tasks[taskId].progress ==
                Progress(if failure.Some? then run.fault.value.atFrame else run.framesRead, run.totalFrames)
      ensures run.totalFrames <= 0 ==> written == []
    {
      written := [];
      failure := None;
      var frameCount: nat := 0;
      while frameCount < run.framesRead && failure.None?
        invariant frameCount <= run.framesRead
        invariant failure.Some? ==> frameCount < run.framesRead
        invariant tasks == old(tasks)[taskId := ([Started] + written)[|written|]]
        invariant forall i :: 0 <= i < |written| ==>
                    written[i].status == PROCESSING && written[i].resultPath.None? && written[i].error.None?
        invariant tasks[taskId].progress == Progress(frameCount, run.totalFrames)
        invariant run.totalFrames <= 0 ==> written == []
        invariant failure.None? ==> run.fault.None? || run.fault.value.atFrame >= frameCount
        invariant failure.Some? ==> run.fault.Some? && run.fault.value.atFrame == frameCount
                                    && failure == Some(run.fault.value.message)
        decreases run.framesRead - frameCount, if failure.None? then 1 else 0
      {
        if run.fault.Some? && run.fault.value.atFrame == frameCount {
          failure := Some(run.fault.value.message);
        } else {
          frameCount := frameCount + 1;
          if run.totalFrames > 0 {
            var entry := tasks[taskId].(progress := Progress(frameCount, run.totalFrames));
            tasks := tasks[taskId := entry];
            written := written + [entry];
          }
        }
      }
    }

    /**
     * process_video_in_background: returns the successive values the task
     * entry is written with.
     */
    method ProcessVideoInBackground(inPath: string, outPath: string, taskId: string, run: VideoRun)
      returns (trace: seq<TaskEntry>)
      modifies this`tasks
      ensures |trace| >= 2
      ensures tasks == old(tasks)[taskId := trace[|trace| - 1]]
      ensures Lifecycle(trace)
      ensures tasks[taskId].status == COMPLETED <==> RunError(inPath, run).None?
      ensures tasks[taskId].status == COMPLETED ==> tasks[taskId].resultPath == Some(outPath)
      ensures tasks[taskId].status == FAILED ==> tasks[taskId].error == RunError(inPath, run)
      ensures tasks[taskId].progress == Progress(FramesDone(run), run.totalFrames)
      ensures run.totalFrames <= 0 ==> forall i :: 0 <= i < |trace| ==> trace[i].progress == 0
    {
      tasks := tasks[taskId := Started];
      var written: seq<TaskEntry> := [];
      var failure: Option<string> := None;
      if !run.captureOpens {
        failure := Some("OpenCV could not open video file at " + inPath);
      } else if !run.writerOpens {
        failure := Some("Could not open video writer.");
      } else {
        written, failure := WriteFrames(taskId, run);
        if failure.None? && !run.outputWritten {
          failure := Some("Processing finished, but the output file is empty or missing.");
        }
      }
      var last := tasks[taskId];
      if failure.Some? {
        last := last.(status := FAILED, error := failure);
      } else {
        last := last.(status := COMPLETED, resultPath := Some(outPath));
      }
      tasks := tasks[taskId := last];
      trace := [Started] + written + [last];
      FinishedRunIsLifecycle(written, last);
    }
  }
}

=== FILE: telemetry.dfy ===
/**
 * The telemetry kept by the live console's inbound-message handler
 * (frontend/src/components/LiveStream.js): round-trip latency, server time,
 * and a frame counter that yields an FPS figure once per 1-second window.
 */
module Telemetry {

  /** The figures shown in the stats overlay. */
  datatype Stats = Stats(latency: int, serverTime: int, fps: nat)

  /** The FPS window: frames counted since the anchor, the anchor time, the last emitted FPS. */
  datatype FpsWindow = FpsWindow(frameCount: nat, lastFpsTime: int, fps: nat)

  /** Length of the FPS window, in milliseconds. */
  const WindowMs: int := 1000

  /** The initial window: both refs at 0 and fps 0. */
  const InitialWindow: FpsWindow := FpsWindow(0, 0, 0)

  /**
   * One inbound message at time `now`: the counter rises by one; when more
   * than a window has passed since the anchor, the counter (this message
   * included) becomes the FPS, the counter resets and the anchor moves to `now`.
   */
  function FpsTick(w: FpsWindow, now: int): (r: FpsWindow)
    ensures r.fps == w.fps || r.fps == w.frameCount + 1
    ensures r.frameCount == 0 || r.frameCount == w.frameCount + 1
  {
    var count := w.frameCount + 1;
    if now - w.lastFpsTime > WindowMs then FpsWindow(0, now, count)
    else w.(frameCount := count)
  }

  /** The window after a run of messages at the given times. */
  function Feed(w: FpsWindow, times: seq<int>): FpsWindow
    decreases |times|
  {
    if times == [] then w else Feed(FpsTick(w, times[0]), times[1..])
  }

  /** Messages that stay inside the window only count: anchor and fps are kept. */
  lemma {:induction false} QuietWindow(w: FpsWindow, times: seq<int>)
    requires forall i :: 0 <= i < |times| ==> times[i] - w.lastFpsTime <= WindowMs
    ensures Feed(w, times) == w.(frameCount := w.frameCount + |times|)
    decreases |times|
  {
    if times != [] {
      var w' := FpsTick(w, times[0]);
      assert w' == w.(frameCount := w.frameCount + 1);
      QuietWindow(w', times[1..]);
    }
  }

  /**
   * Starting from a fresh window anchored at `lastFpsTime`, N messages of
   * which only the last lies strictly beyond the window emit fps == N,
   * reset the counter and move the anchor to the last message's time.
   */
  lemma FpsCountsWindow(w: FpsWindow, times: seq<int>)
    requires w.frameCount == 0 && |times| > 0
    requires forall i :: 0 <= i < |times| - 1 ==> times[i] - w.lastFpsTime <= WindowMs
    requires times[|times| - 1] - w.lastFpsTime > WindowMs
    ensures Feed(w, times) == FpsWindow(0, times[|times| - 1], |times|)
  {
    var n := |times| - 1;
    FeedSplit(w, times[..n], [times[n]]);
    assert times[..n] + [times[n]] == times;
    QuietWindow(w, times[..n]);
  }

  lemma {:induction false} FeedSplit(w: FpsWindow, a: seq<int>, b: seq<int>)
    ensures Feed(w, a + b) == Feed(Feed(w, a), b)
    decreases |a|
  {
    if a != [] {
      assert (a + b)[1..] == a[1..] + b;
      FeedSplit(FpsTick(w, a[0]), a[1..], b);
    } else {
      assert a + b == b;
    }
  }

  /** A message exactly one window after the anchor does not emit: the comparison is strict. */
  lemma BoundaryDoesNotEmit(w: FpsWindow)
    ensures FpsTick(w, w.lastFpsTime + WindowMs).fps == w.fps
    ensures FpsTick(w, w.lastFpsTime + WindowMs + 1).fps == w.frameCount + 1
  {
  }

  /** Because the anchor starts at 0, the first message after time 1000 emits fps == 1. */
  lemma FirstMessageEmitsOne(now: int)
    requires now > WindowMs
    ensures FpsTick(InitialWindow, now) == FpsWindow(0, now, 1)
  {
  }
}

=== FILE: threat.dfy ===
/**
 * The threat classifier and the edge-triggered threat notifier of the live
 * mission console (frontend/src/components/LiveStream.js).
 */
module Threat {
  import opened Wrappers

  /** A detection box in the 0..256 normalised space: (x1, y1) top left, (x2, y2) bottom right. */
  datatype Box = Box(x1: int, y1: int, x2: int, y2: int)

  /** One detection of an inbound message. */
  datatype Detection = Detection(name: string, confidence: real, box: Box)

  /** The three threat levels, in their fixed order NONE < LOW < CRITICAL. */
  datatype ThreatLevel = NONE | LOW | CRITICAL

  /** The display label the console shows and compares. */
  function DisplayLabel(level: ThreatLevel): string
  {
    match level
    case NONE => "NOMINAL"
    case LOW => "CAUTION"
    case CRITICAL => "THREAT DETECTED"
  }

  function Rank(level: ThreatLevel): nat
  {
    match level
    case NONE => 0
    case LOW => 1
    case CRITICAL => 2
  }

  /** Two levels carry the same label only when they are the same level. */
  lemma DisplayLabelInjective(a: ThreatLevel, b: ThreatLevel)
    ensures DisplayLabel(a) == DisplayLabel(b) <==> a == b
  {
    if a != b {
      assert DisplayLabel(a)[0] != DisplayLabel(b)[0];
    }
  }

  /** The classifier's critical set: exact label equality. */
  predicate IsCriticalLabel(name: string)
  {
    name == "Submarine" || name == "Mine"
  }

  /** Reference definition of the classifier. */
  function Classify(detections: Option<seq<Detection>>): ThreatLevel
  {
    match detections
    case None => NONE
    case Some(ds) =>
      if |ds| == 0 then NONE
      else if exists i :: 0 <= i < |ds| && IsCriticalLabel(ds[i].name) then CRITICAL
      else LOW
  }

  /** getThreatLevel: an early-return scan over the detections. */
  method GetThreatLevel(detections: Option<seq<Detection>>) returns (level: ThreatLevel)
    ensures level == Classify(detections)
  {
    if detections.None? || |detections.value| == 0 {
      return NONE;
    }
    var ds := detections.value;
    var i := 0;
    while i < |ds|
      invariant 0 <= i <= |ds|
      invariant forall k :: 0 <= k < i ==> !IsCriticalLabel(ds[k].name)
    {
      if IsCriticalLabel(ds[i].name) {
        return CRITICAL;
      }
      i := i + 1;
    }
    return LOW;
  }

  /** NONE exactly when the detection list is absent or empty. */
  lemma NoneIffAbsentOrEmpty(detections: Option<seq<Detection>>)
    ensures Classify(detections) == NONE <==> detections.None? || |detections.value| == 0
  {
  }

  /** A critical label anywhere forces CRITICAL, whatever surrounds it. */
  lemma CriticalAnywhere(before: seq<Detection>, d: Detection, after: seq<Detection>)
    requires IsCriticalLabel(d.name)
    ensures Classify(Some(before + [d] + after)) == CRITICAL
  {
    var ds := before + [d] + after;
    assert ds[|before|] == d;
  }

  /** LOW means: a non-empty list with no critical label. */
  lemma LowIffBenignNonEmpty(ds: seq<Detection>)
    ensures Classify(Some(ds)) == LOW <==>
              |ds| > 0 && forall i :: 0 <= i < |ds| ==> !IsCriticalLabel(ds[i].name)
  {
  }

  /** Adding detections never lowers the threat level. */
  lemma ClassifyMonotone(ds: seq<Detection>, more: seq<Detection>)
    ensures Rank(Classify(Some(ds))) <= Rank(Classify(Some(ds + more)))
  {
    if Classify(Some(ds)) == CRITICAL {
      var i :| 0 <= i < |ds| && IsCriticalLabel(ds[i].name);
      assert (ds + more)[i] == ds[i];
    } else if Classify(Some(ds)) == LOW {
      assert |ds + more| > 0;
    }
  }

  // ---- The notifier's regular expression /Submarine|Mine/ ----

  /** `sub` occurs in `s` at some position (a substring, not equality). */
  predicate Contains(s: string, sub: string)
  {
    exists i :: 0 <= i <= |s| && OccursAt(s, sub, i)
  }

  predicate OccursAt(s: string, sub: string, i: int)
  {
    0 <= i <= |s| - |sub| && s[i..i + |sub|] == sub
  }

  predicate MentionsCritical(name: string)
  {
    Contains(name, "Submarine") || Contains(name, "Mine")
  }

  /** Every exact critical label also matches the notifier's regular expression. */
  lemma CriticalLabelMentioned(name: string)
    requires IsCriticalLabel(name)
    ensures MentionsCritical(name)
  {
    assert OccursAt(name, name, 0);
  }

  /** The regular expression is weaker than the classifier: "Minesweeper" matches it but is not critical. */
  lemma MentionIsNotCritical()
    ensures MentionsCritical("Minesweeper") && !IsCriticalLabel("Minesweeper")
  {
    assert OccursAt("Minesweeper", "Mine", 0);
  }

  /** The index that Array.prototype.find lands on: the first detection whose label matches. */
  function FirstCriticalMention(ds: seq<Detection>): (i: nat)
    requires exists d :: d in ds && MentionsCritical(d.name)
    ensures i < |ds| && MentionsCritical(ds[i].name)
    ensures forall k :: 0 <= k < i ==> !MentionsCritical(ds[k].name)
    decreases |ds|
  {
    if MentionsCritical(ds[0].name) then 0
    else
      assert forall d :: d in ds && d != ds[0] ==> d in ds[1..];
      1 + FirstCriticalMention(ds[1..])
  }

  /** A CRITICAL list always has a detection the notifier's regular expression finds. */
  lemma CriticalHasMention(ds: seq<Detection>)
    requires Classify(Some(ds)) == CRITICAL
    ensures exists d :: d in ds && MentionsCritical(d.name)
  {
    var i :| 0 <= i < |ds| && IsCriticalLabel(ds[i].name);
    CriticalLabelMentioned(ds[i].name);
    assert ds[i] in ds;
  }

  // ---- The notifier ----

  /** The toasts the threat notifier raises. */
  datatype Toast = CriticalAlert(subject: string) | AnomalyWarning(subject: string)

  datatype ThreatUpdate = ThreatUpdate(level: ThreatLevel, toast: Option<Toast>)

  /**
   * One inbound message: the level is replaced, and a toast raised, only when
   * the new level's label differs from the current one.
   */
  function UpdateThreat(current: ThreatLevel, detections: seq<Detection>): (r: ThreatUpdate)
    ensures r.level == Classify(Some(detections))
    ensures r.toast.Some? <==> Classify(Some(detections)) != current && Classify(Some(detections)) != NONE
    ensures r.toast.Some? && r.toast.value.CriticalAlert? ==>
              r.level == CRITICAL &&
              exists i :: 0 <= i < |detections| && r.toast.value.subject == detections[i].name &&
                          MentionsCritical(detections[i].name) &&
                          forall k :: 0 <= k < i ==> !MentionsCritical(detections[k].name)
    ensures r.toast.Some? && r.toast.value.AnomalyWarning? ==>
              r.level == LOW && r.toast.value.subject == detections[0].name
  {
    var next := Classify(Some(detections));
    DisplayLabelInjective(next, current);
    if DisplayLabel(next) == DisplayLabel(current) then
      ThreatUpdate(current, None)
    else if DisplayLabel(next) == DisplayLabel(CRITICAL) then
      DisplayLabelInjective(next, CRITICAL);
      CriticalHasMention(detections);
      ThreatUpdate(next, Some(CriticalAlert(detections[FirstCriticalMention(detections)].name)))
    else if DisplayLabel(next) == DisplayLabel(LOW) then
      DisplayLabelInjective(next, LOW);
      ThreatUpdate(next, Some(AnomalyWarning(detections[0].name)))
    else
      DisplayLabelInjective(next, CRITICAL);
      DisplayLabelInjective(next, LOW);
      ThreatUpdate(next, None)
  }

  /** The toasts raised over a run of inbound messages, starting from `current`. */
  function Notifications(current: ThreatLevel, messages: seq<seq<Detection>>): seq<Toast>
    decreases |messages|
  {
    if messages == [] then []
    else
      var u := UpdateThreat(current, messages[0]);
      (if u.toast.Some? then [u.toast.value] else []) + Notifications(u.level, messages[1..])
  }

  /** The number of rising edges of a level sequence: changes to a level other than NONE. */
  function RaisedEdges(previous: ThreatLevel, levels: seq<ThreatLevel>): nat
    decreases |levels|
  {
    if levels == [] then 0
    else (if levels[0] != previous && levels[0] != NONE then 1 else 0) + RaisedEdges(levels[0], levels[1..])
  }

  function Levels(messages: seq<seq<Detection>>): (levels: seq<ThreatLevel>)
    ensures |levels| == |messages|
    ensures forall i :: 0 <= i < |messages| ==> levels[i] == Classify(Some(messages[i]))
  {
    seq(|messages|, i requires 0 <= i < |messages| => Classify(Some(messages[i])))
  }

  /** Exactly one toast per level change, none on repetition and none on a change to NONE. */
  lemma {:induction false} OneToastPerEdge(current: ThreatLevel, messages: seq<seq<Detection>>)
    ensures |Notifications(current, messages)| == RaisedEdges(current, Levels(messages))
    decreases |messages|
  {
    if messages != [] {
      var u := UpdateThreat(current, messages[0]);
      OneToastPerEdge(u.level, messages[1..]);
      assert Levels(messages)[1..] == Levels(messages[1..]);
    }
  }

  /** A run of messages all at one level raises at most one toast: one if it is a rising edge. */
  lemma {:induction false} SteadyLevelRaisesOnce(previous: ThreatLevel, level: ThreatLevel, levels: seq<ThreatLevel>)
    requires |levels| > 0
    requires forall i :: 0 <= i < |levels| ==> levels[i] == level
    ensures RaisedEdges(previous, levels) == if level != previous && level != NONE then 1 else 0
    decreases |levels|
  {
    if |levels| > 1 {
      SteadyLevelRaisesOnce(level, level, levels[1..]);
    }
  }

  /**
   * From NONE, the levels NONE, LOW, LOW, CRITICAL, NONE, LOW raise exactly three toasts;
   * from CRITICAL, LOW then CRITICAL raise two.
   */
  lemma ExampleLevelRun()
    ensures RaisedEdges(NONE, [NONE, LOW, LOW, CRITICAL, NONE, LOW]) == 3
    ensures RaisedEdges(CRITICAL, [LOW, CRITICAL]) == 2
  {
  }

  /** Each step of the run below: the level reached and the toast raised. */
  lemma ExampleMessageSteps(whale: Detection, mine: Detection, debris: Detection)
    requires whale.name == "Whale" && mine.name == "Mine" && debris.name == "Debris"
    ensures UpdateThreat(NONE, []) == ThreatUpdate(NONE, None)
    ensures UpdateThreat(NONE, [whale]) == ThreatUpdate(LOW, Some(AnomalyWarning("Whale")))
    ensures UpdateThreat(LOW, [whale]) == ThreatUpdate(LOW, None)
    ensures UpdateThreat(LOW, [whale, mine]) == ThreatUpdate(CRITICAL, Some(CriticalAlert("Mine")))
    ensures UpdateThreat(CRITICAL, []) == ThreatUpdate(NONE, None)
    ensures UpdateThreat(NONE, [debris]) == ThreatUpdate(LOW, Some(AnomalyWarning("Debris")))
  {
    assert !IsCriticalLabel("Whale") && !IsCriticalLabel("Debris");
    assert IsCriticalLabel([whale, mine][1].name);
    assert Classify(Some([whale])) == LOW;
    assert Classify(Some([whale, mine])) == CRITICAL;
    assert Classify(Some([debris])) == LOW;
    assert !MentionsCritical("Whale") by {
      assert "Whale"[0..4] != "Mine" by { assert "Whale"[0..4][0] == 'W'; }
      assert "Whale"[1..5] != "Mine" by { assert "Whale"[1..5][0] == 'h'; }
    }
    assert OccursAt("Mine", "Mine", 0);
    assert FirstCriticalMention([whale, mine]) == 1;
  }

  /** The same run driven by actual detection lists, with the toasts it raises. */
  lemma ExampleMessageRun()
    ensures
      var whale := Detection("Whale", 0.9, Box(0, 0, 10, 10));
      var mine := Detection("Mine", 0.8, Box(5, 5, 20, 20));
      var debris := Detection("Debris", 0.7, Box(1, 1, 2, 2));
      Notifications(NONE, [[], [whale], [whale], [whale, mine], [], [debris]])
        == [AnomalyWarning("Whale"), CriticalAlert("Mine"), AnomalyWarning("Debris")]
  {
    var whale := Detection("Whale", 0.9, Box(0, 0, 10, 10));
    var mine := Detection("Mine", 0.8, Box(5, 5, 20, 20));
    var debris := Detection("Debris", 0.7, Box(1, 1, 2, 2));
    ExampleMessageSteps(whale, mine, debris);
    var tail5: seq<seq<Detection>> := [[debris]];
    var tail4 := [[]] + tail5;
    var tail3 := [[whale, mine]] + tail4;
    var tail2 := [[whale]] + tail3;
    var tail1 := [[whale]] + tail2;
    var run := [[]] + tail1;
    assert Notifications(LOW, tail5[1..]) == [];
    assert Notifications(NONE, tail5) == [AnomalyWarning("Debris")];
    assert Notifications(CRITICAL, tail4) == [AnomalyWarning("Debris")] by { assert tail4[1..] == tail5; }
    assert Notifications(LOW, tail3) == [CriticalAlert("Mine"), AnomalyWarning("Debris")] by { assert tail3[1..] == tail4; }
    assert Notifications(LOW, tail2) == [CriticalAlert("Mine"), AnomalyWarning("Debris")] by { assert tail2[1..] == tail3; }
    assert Notifications(NONE, tail1) == [AnomalyWarning("Whale"), CriticalAlert("Mine"), AnomalyWarning("Debris")] by {
      assert tail1[1..] == tail2;
    }
    assert run[1..] == tail1;
    assert run == [[], [whale], [whale], [whale, mine], [], [debris]];
  }

  /**
   * The critical toast names the first label the pattern matches, even when
   * that label is not itself critical: "Minesweeper" before "Mine".
   */
  lemma ExampleToastNamesFirstMatch()
    ensures
      var sweeper := Detection("Minesweeper", 0.9, Box(0, 0, 10, 10));
      var mine := Detection("Mine", 0.8, Box(5, 5, 20, 20));
      UpdateThreat(NONE, [sweeper, mine]) == ThreatUpdate(CRITICAL, Some(CriticalAlert("Minesweeper")))
  {
    var sweeper := Detection("Minesweeper", 0.9, Box(0, 0, 10, 10));
    var mine := Detection("Mine", 0.8, Box(5, 5, 20, 20));
    assert IsCriticalLabel([sweeper, mine][1].name);
    assert Classify(Some([sweeper, mine])) == CRITICAL;
    assert OccursAt("Minesweeper", "Mine", 0);
    assert FirstCriticalMention([sweeper, mine]) == 0;
  }
}

=== FILE: video_enhancer.dfy ===
/**
 * The video-enhancement page (frontend/src/components/VideoEnhancer.js): the
 * task-status state machine behind the Enhance button. Every HTTP exchange
 * is a parameter holding its reply; requests the page makes are recorded.
 */
module VideoEnhancer {
  import opened Wrappers

  // ---- Button label ----

  /** The statuses during which work is in flight and the button is disabled. */
  predicate IsProcessing(status: string)
  {
    status == "ANALYZING" || status == "UPLOADING" || status == "QUEUED" || status == "PROCESSING"
  }

  function DigitChar(d: nat): (c: char)
    requires d < 10
    ensures '0' <= c <= '9'
  {
    "0123456789"[d]
  }

  /** The decimal digits of `n`, most significant first, as a template literal prints them. */
  function Digits(n: nat): (s: string)
    ensures |s| >= 1
    ensures forall i :: 0 <= i < |s| ==> '0' <= s[i] <= '9'
    decreases n
  {
    if n < 10 then [DigitChar(n)] else Digits(n / 10) + [DigitChar(n % 10)]
  }

  /** Reads decimal digits back, as a reference for `Digits`. */
  function DigitsValue(s: string): int
    decreases |s|
  {
    if s == [] then 0 else DigitsValue(s[..|s| - 1]) * 10 + (s[|s| - 1] as int - '0' as int)
  }

  lemma {:induction false} DigitsRoundTrip(n: nat)
    ensures DigitsValue(Digits(n)) == n
    decreases n
  {
    if n >= 10 {
      DigitsRoundTrip(n / 10);
      var s := Digits(n);
      assert s[..|s| - 1] == Digits(n / 10);
    }
  }

  function IntText(n: int): string
  {
    if n < 0 then "-" + Digits(-n) else Digits(n)
  }

  /** JavaScript truthiness of a nullable string. */
  predicate Truthy(s: Option<string>)
  {
    s.Some? && s.value != ""
  }

  function StatusMessage(status: string, progress: int, enhancedVideo: Option<string>): (m: string)
    ensures status == "PROCESSING" ==> m == "Processing... " + IntText(progress) + "%"
    ensures IsProcessing(status) && status != "PROCESSING" ==> m == status + "..."
    ensures status == "COMPLETED" ==> m == (if Truthy(enhancedVideo) then "Completed!" else "Loading Result...")
    ensures status == "FAILED" ==> m == "Failed"
    ensures !IsProcessing(status) && status != "COMPLETED" && status != "FAILED" ==> m == "Enhance Video"
  {
    if IsProcessing(status) then
      if status == "PROCESSING" then "Processing... " + IntText(progress) + "%" else status + "..."
    else if status == "COMPLETED" then
      if Truthy(enhancedVideo) then "Completed!" else "Loading Result..."
    else if status == "FAILED" then "Failed"
    else "Enhance Video"
  }

  /** The labels shown while no work is in flight. */
  const IdleLabels: set<string> := {"Enhance Video", "Completed!", "Loading Result...", "Failed"}

  /** The label alone tells whether work is in flight. */
  lemma LabelShowsProcessing(status: string, progress: int, enhancedVideo: Option<string>)
    ensures IsProcessing(status) <==> StatusMessage(status, progress, enhancedVideo) !in IdleLabels
  {
    var m := StatusMessage(status, progress, enhancedVideo);
    if IsProcessing(status) {
      assert m[0] in {'A', 'U', 'Q', 'P'};
      assert m[0] !in {'E', 'C', 'L', 'F'};
      forall l | l in IdleLabels
        ensures m != l
      {
        assert l[0] in {'E', 'C', 'L', 'F'};
      }
    }
  }

  /** The Enhance button is enabled only with a file chosen and nothing in flight. */
  predicate ButtonEnabled(selectedFile: Option<string>, status: string)
  {
    selectedFile.Some? && !IsProcessing(status)
  }

  // ---- HTTP exchanges ----

  datatype Analysis = Analysis(scores: seq<real>, timestamps: seq<real>)

  datatype Request =
    | AnalyzePost(file: string)
    | EnhancePost(file: string)
    | StatusGet(taskId: string)

  /** A reply, or a thrown request error with the server's `detail` if any. */
  datatype Reply<T> = Ok(data: T) | Err(detail: Option<string>)

  /** The body of GET /tasks/{id}/status. */
  datatype StatusReport = StatusReport(status: string, progress: int, error: Option<string>)

  const NoFileError := "Please select a video file first."
  const NoTaskError := "Failed to start enhancement task."
  const DefaultError := "An error occurred during the process."
  const PollError := "Could not get task status."

  function ErrorText(detail: Option<string>): (e: string)
    ensures Truthy(detail) ==> e == detail.value
    ensures !Truthy(detail) ==> e == DefaultError
  {
    if Truthy(detail) then detail.value else DefaultError
  }

  function ResultUrl(taskId: string): string
  {
    "http://127.0.0.1:8000/results/" + taskId
  }

  function FailureText(taskError: Option<string>): string
  {
    "Processing failed: " + (if Truthy(taskError) then taskError.value else "Unknown error")
  }

  /** The reply ends polling. */
  predicate EndsPolling(reply: Reply<StatusReport>)
  {
    reply.Err? || reply.data.status == "COMPLETED" || reply.data.status == "FAILED"
  }

  class Enhancer {
    var selectedFile: Option<string>
    var originalVideo: Option<string>
    var enhancedVideo: Option<string>
    var error: string
    var analysisData: Option<Analysis>
    var taskStatus: string
    var taskProgress: int
    /** The task id the polling interval queries, while one is set. */
    var polling: Option<string>
    var requests: seq<Request>

    constructor ()
      ensures selectedFile.None? && originalVideo.None? && enhancedVideo.None? && analysisData.None?
      ensures error == "" && taskStatus == "" && taskProgress == 0
      ensures polling.None? && requests == []
    {
      selectedFile, originalVideo, enhancedVideo, analysisData := None, None, None, None;
      error, taskStatus, taskProgress := "", "", 0;
      polling, requests := None, [];
    }

    /** handleFileChange: a chosen file resets the page and cancels polling. */
    method HandleFileChange(file: Option<string>, objectUrl: string)
      modifies this
      ensures file.None? ==>
                && selectedFile == old(selectedFile) && originalVideo == old(originalVideo)
                && enhancedVideo == old(enhancedVideo) && analysisData == old(analysisData)
                && error == old(error) && taskStatus == old(taskStatus) && taskProgress == old(taskProgress)
                && polling == old(polling)
      ensures file.Some? ==>
                && selectedFile == file && originalVideo == Some(objectUrl)
                && enhancedVideo.None? && analysisData.None? && error == ""
                && taskStatus == "" && taskProgress == 0 && polling.None?
      ensures file.Some? ==> ButtonEnabled(selectedFile, taskStatus)
      ensures requests == old(requests)
    {
      if file.Some? {
        selectedFile := file;
        originalVideo := Some(objectUrl);
        enhancedVideo := None;
        analysisData := None;
        error := "";
        taskStatus := "";
        taskProgress := 0;
        polling := None;
      }
    }

    /**
     * handleEnhance: analyse, upload, then start polling the returned task.
     * `statuses` lists the values taskStatus is set to, in order.
     */
    method HandleEnhance(analysis: Reply<Analysis>, enhance: Reply<Option<string>>) returns (statuses: seq<string>)
      modifies this`error, this`taskStatus, this`enhancedVideo, this`analysisData, this`requests, this`polling
      ensures selectedFile.None? ==>
                && error == NoFileError && statuses == [] && requests == old(requests)
                && taskStatus == old(taskStatus) && enhancedVideo == old(enhancedVideo)
                && analysisData == old(analysisData) && polling == old(polling)
      ensures selectedFile.Some? ==> enhancedVideo.None? && |statuses| >= 3 && taskStatus == statuses[|statuses| - 1]
      ensures selectedFile.Some? && analysis.Err? ==>
                && requests == old(requests) + [AnalyzePost(selectedFile.value)]
                && statuses == ["", "ANALYZING", "FAILED"] && error == ErrorText(analysis.detail)
                && analysisData == old(analysisData) && polling == old(polling)
      ensures selectedFile.Some? && analysis.Ok? ==>
                && requests == old(requests) + [AnalyzePost(selectedFile.value), EnhancePost(selectedFile.value)]
                && analysisData == Some(analysis.data)
      ensures selectedFile.Some? && analysis.Ok? && enhance.Err? ==>
                statuses == ["", "ANALYZING", "UPLOADING", "FAILED"] && error == ErrorText(enhance.detail)
                && polling == old(polling)
      ensures selectedFile.Some? && analysis.Ok? && enhance.Ok? && Truthy(enhance.data) ==>
                statuses == ["", "ANALYZING", "UPLOADING", "QUEUED"] && error == "" && polling == enhance.data
      ensures selectedFile.Some? && analysis.Ok? && enhance.Ok? && !Truthy(enhance.data) ==>
                statuses == ["", "ANALYZING", "UPLOADING"] && error == NoTaskError && polling == old(polling)
                // nothing resets the in-flight status, so the button stays disabled
                && !ButtonEnabled(selectedFile, taskStatus)
    {
      if selectedFile.None? {
        error := NoFileError;
        return [];
      }
      var file := selectedFile.value;
      error := "";
      taskStatus := "";
      enhancedVideo := None;
      statuses := [""];

      taskStatus := "ANALYZING";
      statuses := statuses + [taskStatus];
      requests := requests + [AnalyzePost(file)];
      if analysis.Err? {
        error := ErrorText(analysis.detail);
        taskStatus := "FAILED";
        statuses := statuses + [taskStatus];
        return;
      }
      analysisData := Some(analysis.data);

      taskStatus := "UPLOADING";
      statuses := statuses + [taskStatus];
      requests := requests + [EnhancePost(file)];
      if enhance.Err? {
        error := ErrorText(enhance.detail);
        taskStatus := "FAILED";
        statuses := statuses + [taskStatus];
        return;
      }
      if Truthy(enhance.data) {
        taskStatus := "QUEUED";
        statuses := statuses + [taskStatus];
        polling := enhance.data;
      } else {
        error := NoTaskError;
      }
    }

    /** One firing of the polling interval, with the reply to its status request. */
    method PollTick(reply: Reply<StatusReport>)
      requires polling.Some?
      modifies this`taskStatus, this`taskProgress, this`enhancedVideo, this`error, this`polling, this`requests
      ensures requests == old(requests) + [StatusGet(old(polling).value)]
      ensures polling.None? <==> EndsPolling(reply)
      ensures polling.Some? ==> polling == old(polling)
      ensures reply.Err? ==>
                && error == PollError && taskStatus == old(taskStatus) && taskProgress == old(taskProgress)
                && enhancedVideo == old(enhancedVideo)
      // a failed request leaves an in-flight status, and so a disabled button, in place
      ensures reply.Err? && IsProcessing(old(taskStatus)) ==> !ButtonEnabled(selectedFile, taskStatus)
      ensures reply.Ok? ==>
                && taskStatus == reply.data.status
                && taskProgress == (if reply.data.progress != 0 then reply.data.progress else old(taskProgress))
      ensures reply.Ok? && reply.data.status == "COMPLETED" ==>
                && enhancedVideo == Some(ResultUrl(old(polling).value)) && error == old(error)
                && StatusMessage(taskStatus, taskProgress, enhancedVideo) == "Completed!"
      ensures reply.Ok? && reply.data.status == "FAILED" ==>
                && error == FailureText(reply.data.error) && enhancedVideo == old(enhancedVideo)
                && StatusMessage(taskStatus, taskProgress, enhancedVideo) == "Failed"
      ensures reply.Ok? && !EndsPolling(reply) ==> error == old(error) && enhancedVideo == old(enhancedVideo)
    {
      var taskId := polling.value;
      requests := requests + [StatusGet(taskId)];
      if reply.Err? {
        error := PollError;
        polling := None;
        return;
      }
      var report := reply.data;
      taskStatus := report.status;
      if report.progress != 0 {
        taskProgress := report.progress;
      }
      if report.status == "COMPLETED" {
        enhancedVideo := Some(ResultUrl(taskId));
        polling := None;
      } else if report.status == "FAILED" {
        error := FailureText(report.error);
        polling := None;
      }
    }

    /**
     * The interval firing with each reply in turn until it is cleared;
     * returns how many requests were made.
     */
    method Poll(replies: seq<Reply<StatusReport>>) returns (ticks: nat)
      requires polling.Some?
      modifies this`taskStatus, this`taskProgress, this`enhancedVideo, this`error, this`polling, this`requests
      ensures ticks <= |replies|
      ensures forall k :: 0 <= k < ticks - 1 ==> !EndsPolling(replies[k])
      ensures polling.None? <==> ticks > 0 && EndsPolling(replies[ticks - 1])
      ensures polling.Some? ==> ticks == |replies| && polling == old(polling)
      ensures var taskId := old(polling).value; requests == old(requests) + seq(ticks, _ => StatusGet(taskId))
      ensures taskStatus == StatusAfter(old(taskStatus), replies[..ticks])
      ensures taskProgress == ProgressAfter(old(taskProgress), replies[..ticks])
      // while polling continues, neither the result nor the error has been touched
      ensures polling.Some? ==> enhancedVideo == old(enhancedVideo) && error == old(error)
      // the reply that stopped polling decides the page's outcome
      ensures polling.None? ==> var last := replies[ticks - 1];
                && (last.Ok? && last.data.status == "COMPLETED" ==>
                      enhancedVideo == Some(ResultUrl(old(polling).value)) && error == old(error)
                      && StatusMessage(taskStatus, taskProgress, enhancedVideo) == "Completed!")
                && (last.Ok? && last.data.status == "FAILED" ==>
                      error == FailureText(last.data.error) && enhancedVideo == old(enhancedVideo)
                      && StatusMessage(taskStatus, taskProgress, enhancedVideo) == "Failed")
                && (last.Err? ==> error == PollError && enhancedVideo == old(enhancedVideo))
    {
      var taskId := polling.value;
      ticks := 0;
      while ticks < |replies| && polling.Some?
        invariant ticks <= |replies|
        invariant forall k :: 0 <= k < ticks - 1 ==> !EndsPolling(replies[k])
        invariant polling.None? <==> ticks > 0 && EndsPolling(replies[ticks - 1])
        invariant polling.Some? ==> polling == old(polling)
        invariant taskId == old(polling).value
        invariant requests == old(requests) + seq(ticks, _ => StatusGet(taskId))
        invariant taskStatus == StatusAfter(old(taskStatus), replies[..ticks])
        invariant taskProgress == ProgressAfter(old(taskProgress), replies[..ticks])
        invariant polling.Some? ==> enhancedVideo == old(enhancedVideo) && error == old(error)
        invariant polling.None? ==> var last := replies[ticks - 1];
                    && (last.Ok? && last.data.status == "COMPLETED" ==>
                          enhancedVideo == Some(ResultUrl(taskId)) && error == old(error))
                    && (last.Ok? && last.data.status == "FAILED" ==>
                          error == FailureText(last.data.error) && enhancedVideo == old(enhancedVideo))
                    && (last.Err? ==> error == PollError && enhancedVideo == old(enhancedVideo))
      {
        assert replies[..ticks + 1][..ticks] == replies[..ticks];
        PollTick(replies[ticks]);
        ticks := ticks + 1;
      }
    }
  }

  /** The status after a run of replies: each successful reply overwrites it, a failed request keeps it. */
  function StatusAfter(status: string, replies: seq<Reply<StatusReport>>): string
    decreases |replies|
  {
    if replies == [] then status
    else
      var before := StatusAfter(status, replies[..|replies| - 1]);
      var last := replies[|replies| - 1];
      if last.Ok? then last.data.status else before
  }

  /** The progress after a run of replies: only a non-zero reported progress overwrites it. */
  function ProgressAfter(progress: int, replies: seq<Reply<StatusReport>>): int
    decreases |replies|
  {
    if replies == [] then progress
    else
      var before := ProgressAfter(progress, replies[..|replies| - 1]);
      var last := replies[|replies| - 1];
      if last.Ok? && last.data.progress != 0 then last.data.progress else before
  }

  /** A reported progress of 0 never erases the progress shown. */
  lemma {:induction false} ZeroProgressKeepsValue(progress: int, replies: seq<Reply<StatusReport>>)
    requires forall k :: 0 <= k < |replies| ==> replies[k].Err? || replies[k].data.progress == 0
    ensures ProgressAfter(progress, replies) == progress
    decreases |replies|
  {
    if replies != [] {
      ZeroProgressKeepsValue(progress, replies[..|replies| - 1]);
    }
  }
}

=== FILE: wrappers.dfy ===
/** Option and Result: absent values and error returns of the modelled code. */
module Wrappers {

  datatype Option<+T> = None | Some(value: T)

  datatype Result<+R, +E> = Success(value: R) | Failure(error: E)
}
